=== FILE: README.md ===
# PureMVC multicore kernel in Dafny

This project models the notification and registration kernel of the Java
multicore port of PureMVC, and proves properties of that model. A *core*
is identified by a multiton key. Each core has four actors:

- a **View**: the observer lists per notification name, plus the mediator registry;
- a **Controller**: the command registry;
- a **Model**: the proxy registry;
- a **Facade** that builds the other three and sends notifications.

The model is functional. Every object is an immutable datatype, and every
operation is a pure function from the old state to the new state plus a
trace of the user-code calls it makes.

- **The static tables.** The four static `instanceMap` tables are fields
  of one `World` record (`facade.dfy`).
- **Object identity.** Identity is an `ObjId`. Controllers, which the
  framework constructs, and commands, which it obtains from a user
  supplier's `get()`, take fresh identities from a counter: every `get()`
  is taken to build a new command (see "## Left out").
- **User code is opaque.** `handleNotification`, `execute`,
  `onRegister`, `onRemove` and command suppliers are recorded as
  `Event`s (`events.dfy`):
  - `Notified(callback, note)`: an observer's callback ran;
  - `Supplied(supplier, command)`: a supplier built a new command;
  - `KeyAssigned(object, key)`: `initializeNotifier` ran on a command;
  - `Executed(command, note)`: a command's `execute` ran;
  - `Registered(object, visible)` and `Removed(object, visible)`: a
    lifecycle hook ran. `visible` says whether the registry held the
    object when the hook ran, so "hook after store" and "hook after
    removal" are stated in the trace.
- **Exceptions and null.** A Java exception becomes the `Failure` side of
  a `Result` with a `Fault`:
  - `DuplicateMultiton`: a second construction for the same key;
  - `NotifierUninitialized`: `getFacade` before `initializeNotifier`;
  - `NullObserverList`: the null dereference in `View.removeObserver`.

  A Java `null` becomes `None`.
- **Re-entrant callbacks.** A callback may change the View while a dispatch
  runs. The model takes this as a parameter `react`: the view after an
  observer's callback ran. So the snapshot rule of `notifyObservers` is
  proved for every possible callback behaviour.

Two places where the model departs from a literal reading of the code:

- **Unsubscribing from a missing list.** `View.removeObserver`
  dereferences the list without a null check (View.java:153-156), so
  here it is a precondition
  (`Views.RemoveObserver`). The callers that can reach it
  (`Views.RemoveMediator`, `Controllers.RemoveCommand`) return a
  `NullObserverList` failure. Lemmas show they never do so while the
  subscriptions they rely on are intact.
- **MacroCommand's queue field.** In `MacroCommand.java` the declaration
  of the sub-command queue sits inside an unterminated doc comment, so the
  file does not compile as written. The model uses the evident intent: a
  FIFO queue of suppliers.

Files:

- `wrappers.dfy`, `identity.dfy`, `events.dfy`: `Option`/`Result`,
  object identities and faults, and the trace events.
- `notification.dfy`, `observer.dfy`, `notifier.dfy`: the
  notification value, the observer, and the Notifier's key.
- `mediator.dfy`, `proxy.dfy`: the Mediator and Proxy base classes.
- `view.dfy`, `controller.dfy`, `model.dfy`: the three actors of a core.
- `command.dfy`: command suppliers, the kernel's "get, key, execute"
  sequence, and MacroCommand.
- `multiton.dfy`, `facade.dfy`: the keyed tables, Facade construction,
  core removal and notification sending.
- `notifier_calls.dfy`: `getFacade` and the Notifier's
  `sendNotification` overloads.
- `scenarios.dfy`: whole-core scenarios proved on concrete inputs.

## Model

| member | source | states |
|---|---|---|
| Notifications.NewNotification | src/main/java/org/puremvc/java/multicore/patterns/observer/Notification.java:61-65 | name, body and type are stored unchanged |
| Notifications.NewNotificationWithBody | src/main/java/org/puremvc/java/multicore/patterns/observer/Notification.java:73-75 | name and body are kept; the type is null |
| Notifications.NewNamedNotification | src/main/java/org/puremvc/java/multicore/patterns/observer/Notification.java:82-84 | the name is kept; body and type are null |
| Notifications.SetBody | src/main/java/org/puremvc/java/multicore/patterns/observer/Notification.java:98-100 | the body becomes the argument; name and type are unchanged |
| Notifications.SetType | src/main/java/org/puremvc/java/multicore/patterns/observer/Notification.java:114-116 | the type becomes the argument; name and body are unchanged |
| Notifications.ToString | src/main/java/org/puremvc/java/multicore/patterns/observer/Notification.java:132-137 | the text is, in order, "Notification Name: ", the name, "\nBody:", the body's text (or "null"), "\nType:" and the type (or "null"); each part is pinned at its position and the length is the sum of the six |
| Notifications.ToStringConflatesNull | src/main/java/org/puremvc/java/multicore/patterns/observer/Notification.java:132-137 | a null body and type print exactly like a body and a type whose text is "null" |
| Observers.NewObserver | src/main/java/org/puremvc/java/multicore/patterns/observer/Observer.java:48-51 | the observer holds the given callback and context |
| Observers.CompareNotifyContext | src/main/java/org/puremvc/java/multicore/patterns/observer/Observer.java:59-61 | true exactly when the argument is the stored context object |
| Observers.NotifyObserver | src/main/java/org/puremvc/java/multicore/patterns/observer/Observer.java:68-70 | one call of the stored callback with the given notification |
| Observers.SetNotifyContext | src/main/java/org/puremvc/java/multicore/patterns/observer/Observer.java:86-88 | only the context changes |
| Observers.SetNotifyMethod | src/main/java/org/puremvc/java/multicore/patterns/observer/Observer.java:106-108 | only the callback changes |
| Observers.SetContextGovernsComparison | src/main/java/org/puremvc/java/multicore/patterns/observer/Observer.java:86-88 | after setNotifyContext(c), compareNotifyContext(x) holds exactly when x is c |
| Observers.SetMethodKeepsComparison | src/main/java/org/puremvc/java/multicore/patterns/observer/Observer.java:106-108 | setNotifyMethod leaves every comparison result unchanged |
| Observers.FirstContextIndex | src/main/java/org/puremvc/java/multicore/core/View.java:156-157 | the index the removal loop stops at: no earlier observer has the context, the one there has it, and it is the list's end exactly when no observer has the context |
| Observers.RemoveFirstWithContext | src/main/java/org/puremvc/java/multicore/core/View.java:156-162 | the list loses one element exactly when some observer has the context; the count for that context drops by one if positive, and counts for other contexts are unchanged |
| Observers.RemoveFirstIsRemoveAt | src/main/java/org/puremvc/java/multicore/core/View.java:156-162 | the recursive removal equals the loop's form: find the first index with the context, splice that one element out, keep the rest in order; no index found leaves the list as it was |
| Observers.WithoutContext | src/main/java/org/puremvc/java/multicore/core/View.java:156-162 | the observers whose context is not the given one: none of them has it, and the list loses exactly the observers that do |
| Observers.RemoveFirstKeepsOthers | src/main/java/org/puremvc/java/multicore/core/View.java:156-162 | removing the first observer with a context keeps every other observer, in order and with its callback |
| Observers.RemoveFirstN | src/main/java/org/puremvc/java/multicore/core/View.java:237-241 | k first-match removals one after another keep every observer of another context, in order, and never lengthen the list |
| Observers.RemoveFirstFromCopies | src/main/java/org/puremvc/java/multicore/core/View.java:156-162 | from a list whose tail is k copies of o, with no earlier observer sharing o's context, the removal takes off exactly one copy |
| Notifiers.InitializeNotifier | src/main/java/org/puremvc/java/multicore/patterns/observer/Notifier.java:110-112 | the key becomes the argument |
| Mediators.NewMediator | src/main/java/org/puremvc/java/multicore/patterns/mediator/Mediator.java:43-49 | a null name becomes "Mediator", a given name is kept; there are no interests; the view component is kept; the key is unset |
| Mediators.NewNamedMediator | src/main/java/org/puremvc/java/multicore/patterns/mediator/Mediator.java:57-61 | the two-argument constructor with a null view component |
| Mediators.NewDefaultMediator | src/main/java/org/puremvc/java/multicore/patterns/mediator/Mediator.java:67-71 | named "Mediator", with no interests and no view component |
| Mediators.SetViewComponent | src/main/java/org/puremvc/java/multicore/patterns/mediator/Mediator.java:153-157 | identity, name, interests and key are unchanged |
| Mediators.NameIsKept | src/main/java/org/puremvc/java/multicore/patterns/mediator/Mediator.java:120-124 | getMediatorName returns the name given to the constructor |
| Mediators.ViewComponentRoundTrip | src/main/java/org/puremvc/java/multicore/patterns/mediator/Mediator.java:141-157 | get after set returns the value set, and a second set overrides the first |
| Proxies.NewProxy | src/main/java/org/puremvc/java/multicore/patterns/proxy/Proxy.java:45-48 | a null name becomes "Proxy", a given name is kept; null data leaves the data null and other data is stored; the key is unset |
| Proxies.NewNamedProxy | src/main/java/org/puremvc/java/multicore/patterns/proxy/Proxy.java:55-57 | the name or "Proxy", and null data |
| Proxies.NewDefaultProxy | src/main/java/org/puremvc/java/multicore/patterns/proxy/Proxy.java:62-64 | named "Proxy", with null data |
| Proxies.SetData | src/main/java/org/puremvc/java/multicore/patterns/proxy/Proxy.java:97-99 | identity, name and key are unchanged |
| Proxies.NameIsKept | src/main/java/org/puremvc/java/multicore/patterns/proxy/Proxy.java:83-85 | getProxyName returns the name given to the constructor |
| Proxies.DataRoundTrip | src/main/java/org/puremvc/java/multicore/patterns/proxy/Proxy.java:90-99 | get after set returns the value set, and a second set overrides the first |
| Models.NewModel | src/main/java/org/puremvc/java/multicore/core/Model.java:69-75 | the Model of a key starts with no proxies |
| Models.RegisterProxy | src/main/java/org/puremvc/java/multicore/core/Model.java:107-111 | the proxy is keyed with the model's key and stored under its name, replacing any entry; its onRegister runs once and sees it stored |
| Models.RemoveProxy | src/main/java/org/puremvc/java/multicore/core/Model.java:139-146 | an absent name returns null, changes nothing and runs no hook; a present name's proxy leaves the map, then its onRemove runs and no longer sees it, and it is returned |
| Models.RegisterThenRetrieve | src/main/java/org/puremvc/java/multicore/core/Model.java:119-131 | after registerProxy(p), hasProxy(p's name) holds and retrieveProxy returns p with the model's key |
| Models.RegisterOverwrites | src/main/java/org/puremvc/java/multicore/core/Model.java:109 | a second proxy under the same name replaces the first |
| Models.RegisterRemoveRoundTrip | src/main/java/org/puremvc/java/multicore/core/Model.java:139-146 | removing a name that was just registered restores the model and returns the keyed proxy |
| Models.OtherNamesUntouched | src/main/java/org/puremvc/java/multicore/core/Model.java:107-146 | registration and removal leave proxies under other names as they were |
| Multiton.GetInstance | src/main/java/org/puremvc/java/multicore/core/Model.java:95-100 | the factory is used only for an absent key; the answer is always the stored instance; exactly that key is added |
| Multiton.Remove | src/main/java/org/puremvc/java/multicore/core/Model.java:153-155 | only the key is dropped; the other entries are unchanged |
| Multiton.GetInstanceIgnoresFactory | src/main/java/org/puremvc/java/multicore/patterns/facade/Facade.java:112-117 | once a key is present, getInstance with any factory returns the same instance and changes nothing |
| Views.NewView | src/main/java/org/puremvc/java/multicore/core/View.java:72-79 | a new View has no observers and no mediators, and no name maps to an empty list |
| Views.RegisterObserver | src/main/java/org/puremvc/java/multicore/core/View.java:113-119 | the observer is appended to the name's list, which is created if absent; other names' lists are unchanged; no empty list is created |
| Views.Deliver | src/main/java/org/puremvc/java/multicore/core/View.java:141 | one notification per observer of the list, in list order |
| Views.NotifyObservers | src/main/java/org/puremvc/java/multicore/core/View.java:130-143 | the i-th delivery is the i-th registered observer's callback with the note; a name with no list gets none |
| Views.NotifyAfterRegister | src/main/java/org/puremvc/java/multicore/core/View.java:113-143 | registration order is delivery order: the observer registered last is notified after all earlier ones |
| Views.NotifyIgnoresOtherNames | src/main/java/org/puremvc/java/multicore/core/View.java:130-143 | registering under another name does not change who is notified |
| Views.Dispatch | src/main/java/org/puremvc/java/multicore/core/View.java:136-141 | whatever the callbacks do to the view, the deliveries are exactly the snapshot's observers in order |
| Views.DispatchStep | src/main/java/org/puremvc/java/multicore/core/View.java:141 | one step of the loop: the view after dispatching from position i is the view after letting observer i react, then dispatching the rest |
| Views.NotifyObserversReacting | src/main/java/org/puremvc/java/multicore/core/View.java:130-143 | with re-entrant callbacks, the deliveries are those of the list at the start of the call; a name with no list leaves the view unchanged |
| Views.NotifyObserversLoop | src/main/java/org/puremvc/java/multicore/core/View.java:130-143 | the copy-then-iterate loop computes the same deliveries and view as the snapshot dispatch |
| Views.RemoveObserver | src/main/java/org/puremvc/java/multicore/core/View.java:151-170 | the list becomes the list without its first observer of that context; the name goes exactly when that leaves it empty; other names are unchanged; no empty list remains |
| Views.MediatorObserver | src/main/java/org/puremvc/java/multicore/core/View.java:202 | the shared observer calls the mediator's handleNotification and has the mediator as its context |
| Views.RegisterObservers | src/main/java/org/puremvc/java/multicore/core/View.java:205-207 | every name's list gains, at its end, as many copies of the observer as the interests mention that name |
| Views.RegisterMediator | src/main/java/org/puremvc/java/multicore/core/View.java:187-212 | a taken name changes nothing and runs no hook; otherwise the mediator is keyed and stored, each interest's list gets the one shared observer, and onRegister runs last and sees it stored |
| Views.GuardedSubscription | src/main/java/org/puremvc/java/multicore/core/View.java:199-207 | registering the interest list, skipped when empty, adds to each name one copy of the observer per occurrence of the name and changes neither key nor mediators |
| Views.RemoveObservers | src/main/java/org/puremvc/java/multicore/core/View.java:237-241 | on success each name's list is its old list after one first-match removal of the context per occurrence of the name, so the earliest observers with the context go and later ones stay in place; in counts, one observer with the context per occurrence, down to none; the observers of other contexts stay in their order with their callbacks, and lists of names not in the list are untouched; a missing list fails naming one of the interests |
| Views.RemoveObserversCount | src/main/java/org/puremvc/java/multicore/core/View.java:237-241 | one removal under the head name followed by the rest's removals takes one observer with the context per occurrence of each name |
| Views.RemoveObserversExact | src/main/java/org/puremvc/java/multicore/core/View.java:237-241 | removing under the head name once, then the rest, leaves each name's list as its old list after one first-match removal per occurrence |
| Views.RemoveMediator | src/main/java/org/puremvc/java/multicore/core/View.java:230-251 | an absent name returns null and changes nothing; otherwise each interest's list is its old list after one first-match removal of the mediator's context per occurrence (one of the mediator's observers per occurrence, down to none), the other observers stay in their order with their callbacks, other names' lists are untouched, the mediator leaves the map, onRemove runs after it is gone, and it is returned |
| Views.RemoveObserversSucceeds | src/main/java/org/puremvc/java/multicore/core/View.java:237-241 | while every interest still holds the mediator's observers, removing them never meets a missing list |
| Views.RemoveOneCopy | src/main/java/org/puremvc/java/multicore/core/View.java:151-170 | one removal by context takes exactly one of the registered copies off that name's list |
| Views.RemoveObserversFromCopies | src/main/java/org/puremvc/java/multicore/core/View.java:237-241 | removing by context once per interest undoes registering the shared observer once per interest |
| Views.RegisterRemoveMediatorRoundTrip | src/main/java/org/puremvc/java/multicore/core/View.java:187-251 | registering a new mediator and removing it restores the view exactly, returns the keyed mediator, and its onRemove sees it gone |
| Views.RegisterMediatorTwice | src/main/java/org/puremvc/java/multicore/core/View.java:188-189 | a second mediator under a taken name adds no observer and gets no onRegister |
| Views.RegisterThenRetrieve | src/main/java/org/puremvc/java/multicore/core/View.java:187-222 | after registration, hasMediator holds and retrieveMediator returns the keyed mediator |
| Views.RegisterBaseMediatorAddsNoObservers | src/main/java/org/puremvc/java/multicore/patterns/mediator/Mediator.java:80-84 | a base Mediator lists no interests, so registering it changes no observer list |
| Views.RegisterRemoveObserverRoundTrip | src/main/java/org/puremvc/java/multicore/core/View.java:113-170 | registering an observer and removing by its context restores the view when no earlier observer of the name shared that context |
| Commands.Instantiate | src/main/java/org/puremvc/java/multicore/patterns/command/MacroCommand.java:108-110 | a new command from the next free identity is supplied, then keyed, then executed with the note |
| Commands.Run | src/main/java/org/puremvc/java/multicore/patterns/command/MacroCommand.java:106-112 | execute is recorded first; only a MacroCommand does more, and a simple command does nothing else |
| Commands.Drain | src/main/java/org/puremvc/java/multicore/patterns/command/MacroCommand.java:107-111 | an empty queue does nothing; a non-empty queue starts with the head supplier's get, key and execute on the identity `next`; the counter never goes back and the trace has at least three events per supplier (queue order: Commands.DrainAppend; freshness, key and note of every event: Commands.DrainTrace) |
| Commands.InstantiateTrace | src/main/java/org/puremvc/java/multicore/patterns/command/MacroCommand.java:106-112 | every command created, nested ones included, is a fresh object with a higher identity than the last, is keyed with the same key and runs with the same note; no observer is notified |
| Commands.RunTrace | src/main/java/org/puremvc/java/multicore/patterns/command/MacroCommand.java:106-112 | as for Instantiate, for the command's own run |
| Commands.DrainTrace | src/main/java/org/puremvc/java/multicore/patterns/command/MacroCommand.java:106-112 | as for Instantiate, for the whole queue |
| Commands.DrainAppend | src/main/java/org/puremvc/java/multicore/patterns/command/MacroCommand.java:107-111 | draining q1 + q2 runs all of q1 before any of q2 |
| Commands.AddSubCommand | src/main/java/org/puremvc/java/multicore/patterns/command/MacroCommand.java:94-96 | the supplier goes to the back of the queue |
| Commands.AddSubCommands | src/main/java/org/puremvc/java/multicore/patterns/command/MacroCommand.java:94-96 | adding several suppliers appends them in the order given |
| Commands.NewMacroCommand | src/main/java/org/puremvc/java/multicore/patterns/command/MacroCommand.java:55-58 | the queue holds exactly what initializeMacroCommand added; the key is unset |
| Commands.Execute | src/main/java/org/puremvc/java/multicore/patterns/command/MacroCommand.java:106-112 | the queue ends empty; an empty queue does nothing; each sub-command is a fresh object keyed with the macro's key and run with the same note |
| Commands.ExecuteLoop | src/main/java/org/puremvc/java/multicore/patterns/command/MacroCommand.java:106-112 | the take-from-the-front loop computes exactly Execute |
| Commands.ExecuteAfterAdd | src/main/java/org/puremvc/java/multicore/patterns/command/MacroCommand.java:94-112 | FIFO: a sub-command added last runs after everything queued before it |
| Commands.ExecuteTwiceIsNoOp | src/main/java/org/puremvc/java/multicore/patterns/command/MacroCommand.java:107-108 | a second execute finds the queue empty and does nothing |
| Controllers.NewController | src/main/java/org/puremvc/java/multicore/core/Controller.java:78-84 | a new Controller has its key and no commands |
| Controllers.ControllerObserver | src/main/java/org/puremvc/java/multicore/core/Controller.java:152 | the observer's callback is executeCommand and its context is the controller |
| Controllers.RegisterCommand | src/main/java/org/puremvc/java/multicore/core/Controller.java:150-155 | the name maps to the new supplier; the controller subscribes to the name only when no supplier was mapped to it |
| Controllers.RemoveCommand | src/main/java/org/puremvc/java/multicore/core/Controller.java:163-168 | an unmapped name is a no-op; a mapped name loses its supplier and the controller's observer, or fails on a missing list |
| Controllers.ExecuteCommandFor | src/main/java/org/puremvc/java/multicore/core/Controller.java:129-135 | an unmapped name does nothing; otherwise the supplier gives one new command, keyed with the controller's key, executed once with the note |
| Controllers.RegisterCommandKeepsSubscription | src/main/java/org/puremvc/java/multicore/core/Controller.java:150-155 | registering keeps the invariant: one controller observer per mapped name, none on other names |
| Controllers.ReRegisterAddsNoObserver | src/main/java/org/puremvc/java/multicore/core/Controller.java:150-155 | re-registering a name replaces the supplier and leaves the view as it was |
| Controllers.NewControllerSubscribed | src/main/java/org/puremvc/java/multicore/core/Controller.java:78-84 | a new Controller meets the subscription invariant over its core's new View, and over any View holding no observer with its identity |
| Controllers.RemoveCommandKeepsSubscription | src/main/java/org/puremvc/java/multicore/core/Controller.java:163-168 | under the invariant, removeCommand never meets a missing list, and the invariant holds afterwards |
| Controllers.OtherObserversKeepSubscription | src/main/java/org/puremvc/java/multicore/core/View.java:113-170 | observers with other contexts, added or removed, keep the invariant |
| Controllers.MediatorsKeepSubscription | src/main/java/org/puremvc/java/multicore/core/View.java:187-251 | registering or removing mediators keeps the invariant |
| Controllers.FreshCommandPerDispatch | src/main/java/org/puremvc/java/multicore/core/Controller.java:132 | two dispatches in a row build two different command objects |
| Facades.ConstructModel | src/main/java/org/puremvc/java/multicore/core/Model.java:69-75 | a taken key fails; otherwise an empty Model is installed under the key and nothing else changes |
| Facades.ModelGetInstance | src/main/java/org/puremvc/java/multicore/core/Model.java:95-100 | an existing Model is returned with nothing constructed; otherwise the constructor runs once |
| Facades.RemoveModel | src/main/java/org/puremvc/java/multicore/core/Model.java:153-155 | the Model table loses exactly the key, every other entry keeps its Model, and the other tables and the identity counter are unchanged |
| Facades.ConstructViewAsWritten | src/main/java/org/puremvc/java/multicore/core/View.java:72-79 | the View constructor as written: a new, empty View always replaces the table entry |
| Facades.ConstructView | src/main/java/org/puremvc/java/multicore/core/View.java:72-79 | the View constructor as intended: a taken key fails; otherwise an empty View is installed |
| Facades.ViewConstructorDiscardsExisting | src/main/java/org/puremvc/java/multicore/core/View.java:73 | constructing a View a second time gives the table entry an empty View, losing the first View's observers, where the corrected constructor fails; a Facade or Controller already built keeps using the first View |
| Facades.ViewGetInstance | src/main/java/org/puremvc/java/multicore/core/View.java:88-93 | an existing View is returned with nothing constructed; otherwise the corrected constructor runs once |
| Facades.RemoveView | src/main/java/org/puremvc/java/multicore/core/View.java:268-270 | the View table loses exactly the key, every other entry keeps its View, and the other tables and the identity counter are unchanged |
| Facades.InstallController | src/main/java/org/puremvc/java/multicore/core/Controller.java:78-84 | the new Controller takes the next identity and installs itself, then gets the View of its key, creating it only if absent |
| Facades.ConstructController | src/main/java/org/puremvc/java/multicore/core/Controller.java:78-84 | a taken key fails; otherwise the Controller is installed |
| Facades.ControllerGetInstance | src/main/java/org/puremvc/java/multicore/core/Controller.java:115-120 | an existing Controller is returned with nothing constructed; otherwise the constructor runs once |
| Facades.RemoveController | src/main/java/org/puremvc/java/multicore/core/Controller.java:187-189 | the Controller table loses exactly the key, every other entry keeps its Controller, and the other tables and the identity counter are unchanged |
| Facades.InitializeModel | src/main/java/org/puremvc/java/multicore/patterns/facade/Facade.java:159-162 | skipped when the field is set; otherwise Model.getInstance for the key |
| Facades.InitializeController | src/main/java/org/puremvc/java/multicore/patterns/facade/Facade.java:133-136 | skipped when the field is set; otherwise Controller.getInstance for the key |
| Facades.InitializeView | src/main/java/org/puremvc/java/multicore/patterns/facade/Facade.java:184-187 | skipped when the field is set; otherwise View.getInstance for the key |
| Facades.InitializeFacade | src/main/java/org/puremvc/java/multicore/patterns/facade/Facade.java:99-103 | all three fields end up set; constructors run in the order Model, Controller, View; a fully set Facade changes nothing |
| Facades.InitializeFreshFacade | src/main/java/org/puremvc/java/multicore/patterns/facade/Facade.java:99-103 | on a new Facade, exactly the missing actors are constructed, each table gains only this key, and one identity is used only if a Controller was built |
| Facades.FreshActorsInOrder | src/main/java/org/puremvc/java/multicore/patterns/facade/Facade.java:99-103 | the actors a new Facade constructs come in the order Facade, Model, Controller, View |
| Facades.InstallFacade | src/main/java/org/puremvc/java/multicore/patterns/facade/Facade.java:85-90 | the Facade is stored with all fields set, the key's missing actors are constructed and existing ones are reused |
| Facades.ConstructFacade | src/main/java/org/puremvc/java/multicore/patterns/facade/Facade.java:85-90 | a taken key fails; otherwise the Facade is installed |
| Facades.FacadeGetInstance | src/main/java/org/puremvc/java/multicore/patterns/facade/Facade.java:112-117 | an existing Facade is returned with nothing constructed; otherwise the constructor runs once |
| Facades.NewCoreInitOrder | src/main/java/org/puremvc/java/multicore/patterns/facade/Facade.java:85-103 | a brand-new core constructs Facade, Model, Controller, View in that order |
| Facades.RemoveCore | src/main/java/org/puremvc/java/multicore/patterns/facade/Facade.java:382-388 | an unknown key changes nothing; otherwise exactly that key leaves all four tables |
| Facades.CoreLifecycle | src/main/java/org/puremvc/java/multicore/patterns/facade/Facade.java:370-388 | hasCore is true after getInstance, false after removeCore, and unchanged by both for other keys |
| Facades.GetInstanceKeepsConsistent | src/main/java/org/puremvc/java/multicore/patterns/facade/Facade.java:112-117 | getInstance keeps the tables in agreement: every Facade's key has all three actors |
| Facades.RemoveCoreKeepsConsistent | src/main/java/org/puremvc/java/multicore/patterns/facade/Facade.java:382-388 | removeCore keeps the tables in agreement |
| Facades.RemoveCoreThenRecreate | src/main/java/org/puremvc/java/multicore/patterns/facade/Facade.java:382-388 | after removeCore, getInstance builds a new core from scratch, with empty actors |
| Facades.RegisterCommand | src/main/java/org/puremvc/java/multicore/patterns/facade/Facade.java:195-197 | forwards to the core's Controller and View; other tables are unchanged |
| Facades.Perform | src/main/java/org/puremvc/java/multicore/core/Controller.java:129-135 | a delivery to this core's Controller's executeCommand is exactly Controllers.ExecuteCommandFor on that Controller; any other event sets off nothing; the trace notifies no observer |
| Facades.ExpandKeepsDeliveries | src/main/java/org/puremvc/java/multicore/core/View.java:141 | running the commands notifications set off keeps the notifications themselves, in order |
| Facades.NotifyObservers | src/main/java/org/puremvc/java/multicore/patterns/facade/Facade.java:348-350 | the notifications delivered are exactly the View's for the note; only the identity counter changes |
| Facades.SendNotification | src/main/java/org/puremvc/java/multicore/patterns/facade/Facade.java:306-308 | the notifications delivered are the View's for the notification (name, body, type) |
| Facades.SendNotificationWithBody | src/main/java/org/puremvc/java/multicore/patterns/facade/Facade.java:319-321 | the same as the three-argument form with a null type |
| Facades.SendNamedNotification | src/main/java/org/puremvc/java/multicore/patterns/facade/Facade.java:331-333 | the same as the three-argument form with null body and type |
| NotifierCalls.GetFacade | src/main/java/org/puremvc/java/multicore/patterns/observer/Notifier.java:52-55 | no key fails; otherwise the Facade for the key, the existing one if present |
| NotifierCalls.GetFacadeKeepsConsistent | src/main/java/org/puremvc/java/multicore/patterns/observer/Notifier.java:52-55 | a keyed Notifier reaches the Facade of its own key, and the tables stay in agreement |
| NotifierCalls.SendNotification | src/main/java/org/puremvc/java/multicore/patterns/observer/Notifier.java:67-69 | fails without a key; otherwise succeeds, keeps the tables in agreement, and the key's existing View delivers the notification to its observers (a key with no View yet gets a new one that delivers nothing) |
| NotifierCalls.SendThroughFacade | src/main/java/org/puremvc/java/multicore/patterns/facade/Facade.java:306-308 | sending through the Facade a key reaches keeps the tables in agreement, and the deliveries are those of the key's View if it already existed, otherwise none |
| NotifierCalls.SendNotificationWithBody | src/main/java/org/puremvc/java/multicore/patterns/observer/Notifier.java:80-82 | the same as the three-argument form with a null type |
| NotifierCalls.SendNamedNotification | src/main/java/org/puremvc/java/multicore/patterns/observer/Notifier.java:92-94 | the same as the three-argument form with null body and type |
| NotifierCalls.UninitializedNotifierFails | src/main/java/org/puremvc/java/multicore/patterns/observer/Notifier.java:52-94 | every overload fails the same way before initializeNotifier |
| NotifierCalls.InitializedNotifierReachesCore | src/main/java/org/puremvc/java/multicore/patterns/observer/Notifier.java:110-112 | after initializeNotifier(k), a send is seen by exactly the observers of core k |
| Scenarios.CommandOnFreshCore | src/main/java/org/puremvc/java/multicore/core/Controller.java:129-135 | on a new core with one command, a send notifies the Controller, which builds one command, keys it and executes it once |
| Scenarios.MainFlow | src/main/java/org/puremvc/java/multicore/Main.java:10-15 | the demo core "Example" runs its empty MacroCommand once, keyed "Example" |
| Scenarios.LoadScenario | src/main/java/org/puremvc/java/multicore/patterns/facade/Facade.java:319-321 | sending "LOAD" with a body builds one command, keyed "core-1", executed once with ("LOAD", body, null) |
| Scenarios.RegistrationOrder | src/main/java/org/puremvc/java/multicore/core/View.java:113-143 | observers registered H1, H2, H3 are notified H1, H2, H3 |
| Scenarios.UnsubscribeDuringDispatch | src/main/java/org/puremvc/java/multicore/core/View.java:136-141 | an observer that removes itself while being notified does not stop the others; the next dispatch leaves it out |
| Scenarios.RemoveTakesEarliest | src/main/java/org/puremvc/java/multicore/core/View.java:156-162 | with two observers of the same context under one name, one removal takes the first and leaves the second |

## Left out

- Concurrency: `synchronized` factories, `ConcurrentHashMap` and first-use races are not modelled; every operation is one sequential step.
- What user code does inside `handleNotification`, `execute`, `onRegister`, `onRemove` and suppliers is not modelled; those calls appear only as trace events.
- Facades.NotifyObservers: when a mediator or command calls back into the core during a world-level dispatch, the effect is not modelled. The trace records the call, and commands are built from the state at the start of the dispatch. The effect of re-entrant callbacks on the View is modelled only at View level, by Views.NotifyObserversReacting.
- Facade, Controller and View reference fields: the model reads the tables by key. The Java objects keep their own references, which diverge from the tables after `removeModel`, `removeView` or `removeController` is called on its own, and after a direct `new View(key)` on a key that already has a View (View.java:73; the Facade's and Controller's `view` fields, Facade.java:185-186 and Controller.java:104, set from Controller.java:83, keep pointing at the first View). `Facades.Consistent` states when the two agree.
- Views.RemoveObservers: when `removeObserver` throws partway through, Java keeps the removals already made. The model returns only the failure.
- Views.RemoveMediator: the interests are those of the stored mediator. Java calls `listNotificationInterests` again at removal, and the model assumes it returns what it returned at registration.
- `body.toString()` is a call into user code; a body is modelled by its identity and a fixed `text`.
- The interface files hold only signatures. `SimpleCommand` is modelled as the command kind `SimpleKind`, whose `execute` does nothing.
- The Facade's one-line forwarders are not modelled separately; each is modelled by the member it forwards to:
  - `registerProxy`, `retrieveProxy`, `removeProxy` and `hasProxy` by the `Models` operations;
  - `registerMediator`, `retrieveMediator`, `removeMediator` and `hasMediator` by the `Views` operations;
  - `removeCommand` and `hasCommand` by the `Controllers` operations.
- Factories passed to `getInstance` are the framework's default constructors. Subclasses that override `initializeFacade`, `initializeModel` and the like are not modelled.
- Null multiton keys, null notification names and null suppliers are not modelled.
- Controllers.FreshCommandPerDispatch: every supplier `get()` is taken to build a new command, as Controller.java:32 and IController.java:22 describe. A supplier that hands back one shared command object is not modelled; with a shared MacroCommand, Java would run the sub-commands only on the first dispatch, because `execute` drains the queue (MacroCommand.java:107).

## Findings

| source | as written | input that shows it | evidently intended | confidence | as-written member | corrected member |
|---|---|---|---|---|---|---|
| src/main/java/org/puremvc/java/multicore/core/View.java:73 | the duplicate-key check builds an `Error` but never throws it, so `new View(key)` replaces the View already stored under the key | `new View("k")` when "k" already holds a View with an observer for "N": the new table entry has no observer for "N" | throw, as the Model and Controller constructors do (Model.java:70, Controller.java:79) | high; not executed | Facades.ConstructViewAsWritten, Facades.ViewConstructorDiscardsExisting | Facades.ConstructView |

`View.getInstance` constructs only for an absent key, where both definitions agree, so the discrepancy is visible only to code that calls the View constructor directly.

=== FILE: command.dfy ===
/** Commands: command suppliers, the kernel's "obtain, key, execute"
    sequence, and the MacroCommand's FIFO queue of sub-command suppliers. */
module Commands {
  import opened Wrappers
  import opened Identity
  import opened Notifications
  import opened Events
  import opened Notifiers

  /** A `Supplier<ICommand>`: its identity, and the kind of command each
      `get()` builds. Every `get()` is taken to build a new object. */
  datatype Supplier = Supplier(id: nat, kind: CommandKind)

  datatype CommandKind =
    /** `SimpleCommand`, whose `execute` does nothing */
    | SimpleKind
    /** a user command whose `execute` is opaque */
    | CustomKind(tag: nat)
    /** a `MacroCommand` whose `initializeMacroCommand` adds these suppliers, in order */
    | MacroKind(subCommands: seq<Supplier>)

  /** A MacroCommand object: its queue of sub-command suppliers and its key. */
  datatype MacroCommand = MacroCommand(id: ObjId, subCommands: seq<Supplier>, notifier: Notifier)

  /** Every `Supplied` event names a command id in `[lo, hi)`, and the ids
      increase along the trace, so no two supplied commands are the same object. */
  ghost predicate Allocates(events: seq<Event>, lo: nat, hi: nat)
  {
    && (forall i :: 0 <= i < |events| && events[i].Supplied? ==> lo <= events[i].command.n < hi)
    && (forall i, j :: 0 <= i < j < |events| && events[i].Supplied? && events[j].Supplied? ==>
          events[i].command.n < events[j].command.n)
  }

  /** A trace made only of command events, every command keyed with `key`
      and executed with `note`; in particular it notifies no observer. */
  ghost predicate Uniform(events: seq<Event>, key: Option<string>, note: Notification)
  {
    forall i :: 0 <= i < |events| ==>
      match events[i]
      case Supplied(_, _) => true
      case KeyAssigned(_, k) => k == key
      case Executed(_, n) => n == note
      case _ => false
  }

  lemma AllocatesConcat(a: seq<Event>, b: seq<Event>, lo: nat, mid: nat, hi: nat)
    requires lo <= mid <= hi
    requires Allocates(a, lo, mid) && Allocates(b, mid, hi)
    ensures Allocates(a + b, lo, hi)
  {
    var s := a + b;
    forall i, j | 0 <= i < j < |s| && s[i].Supplied? && s[j].Supplied?
      ensures s[i].command.n < s[j].command.n
    {
      if j < |a| {
        assert s[i] == a[i] && s[j] == a[j];
      } else if i < |a| {
        assert s[i] == a[i] && s[j] == b[j - |a|];
      } else {
        assert s[i] == b[i - |a|] && s[j] == b[j - |a|];
      }
    }
    forall i | 0 <= i < |s| && s[i].Supplied?
      ensures lo <= s[i].command.n < hi
    {
      if i < |a| { assert s[i] == a[i]; } else { assert s[i] == b[i - |a|]; }
    }
  }

  lemma UniformConcat(a: seq<Event>, b: seq<Event>, key: Option<string>, note: Notification)
    requires Uniform(a, key, note) && Uniform(b, key, note)
    ensures Uniform(a + b, key, note)
  {
    var s := a + b;
    forall i | 0 <= i < |s|
      ensures match s[i]
              case Supplied(_, _) => true
              case KeyAssigned(_, k) => k == key
              case Executed(_, n) => n == note
              case _ => false
    {
      if i < |a| { assert s[i] == a[i]; } else { assert s[i] == b[i - |a|]; }
    }
  }

  /** What the kernel does with a supplier: `get()` a new command (the next
      free object id), `initializeNotifier(key)` on it, then `execute(note)`. */
  function Instantiate(s: Supplier, key: Option<string>, note: Notification, next: nat): (r: (seq<Event>, nat))
    decreases s
    ensures r.1 > next
    ensures |r.0| >= 3
    ensures r.0[0] == Supplied(s.id, ObjId(next))
    ensures r.0[1] == KeyAssigned(ObjId(next), key)
    ensures r.0[2] == Executed(ObjId(next), note)
  {
    var cmd := ObjId(next);
    var run := Run(s.kind, cmd, key, note, next + 1);
    ([Supplied(s.id, cmd), KeyAssigned(cmd, key)] + run.0, run.1)
  }

  /** `execute(note)` on the command `id` of the given kind, whose key is `key`. */
  function Run(kind: CommandKind, id: ObjId, key: Option<string>, note: Notification, next: nat): (r: (seq<Event>, nat))
    decreases kind
    ensures r.1 >= next
    ensures |r.0| >= 1 && r.0[0] == Executed(id, note)
    ensures !kind.MacroKind? ==> r == ([Executed(id, note)], next)
  {
    match kind
    case MacroKind(q) =>
      var d := Drain(q, key, note, next);
      ([Executed(id, note)] + d.0, d.1)
    case _ => ([Executed(id, note)], next)
  }

  /** The MacroCommand loop: take suppliers off the front of the queue and
      run each to completion before the next. */
  function Drain(q: seq<Supplier>, key: Option<string>, note: Notification, next: nat): (r: (seq<Event>, nat))
    decreases q
    ensures r.1 >= next
    ensures q == [] ==> r == ([], next)
    ensures |r.0| >= 3 * |q|
    ensures q != [] ==>
      && r.0[0] == Supplied(q[0].id, ObjId(next))
      && r.0[1] == KeyAssigned(ObjId(next), key)
      && r.0[2] == Executed(ObjId(next), note)
  {
    if q == [] then ([], next)
    else
      var a := Instantiate(q[0], key, note, next);
      var b := Drain(q[1..], key, note, a.1);
      (a.0 + b.0, b.1)
  }

  /** Running a supplier's command allocates fresh, increasing object ids
      from `next` on, and keys and executes every command it creates (itself
      and, for a macro, all nested sub-commands) with the same key and note. */
  lemma {:induction false} InstantiateTrace(s: Supplier, key: Option<string>, note: Notification, next: nat)
    decreases s
    ensures var r := Instantiate(s, key, note, next);
            Allocates(r.0, next, r.1) && Uniform(r.0, key, note)
  {
    var cmd := ObjId(next);
    var run := Run(s.kind, cmd, key, note, next + 1);
    var head := [Supplied(s.id, cmd), KeyAssigned(cmd, key)];
    RunTrace(s.kind, cmd, key, note, next + 1);
    assert Allocates(head, next, next + 1);
    AllocatesConcat(head, run.0, next, next + 1, run.1);
    UniformConcat(head, run.0, key, note);
  }

  lemma {:induction false} RunTrace(kind: CommandKind, id: ObjId, key: Option<string>, note: Notification, next: nat)
    decreases kind
    ensures var r := Run(kind, id, key, note, next);
            Allocates(r.0, next, r.1) && Uniform(r.0, key, note)
  {
    match kind
    case MacroKind(q) =>
      var d := Drain(q, key, note, next);
      DrainTrace(q, key, note, next);
      AllocatesConcat([Executed(id, note)], d.0, next, next, d.1);
      UniformConcat([Executed(id, note)], d.0, key, note);
    case _ =>
  }

  lemma {:induction false} DrainTrace(q: seq<Supplier>, key: Option<string>, note: Notification, next: nat)
    decreases q
    ensures var r := Drain(q, key, note, next);
            Allocates(r.0, next, r.1) && Uniform(r.0, key, note)
  {
    if q != [] {
      var a := Instantiate(q[0], key, note, next);
      var b := Drain(q[1..], key, note, a.1);
      InstantiateTrace(q[0], key, note, next);
      DrainTrace(q[1..], key, note, a.1);
      AllocatesConcat(a.0, b.0, next, a.1, b.1);
      UniformConcat(a.0, b.0, key, note);
    }
  }

  /** Draining two queues one after the other is draining their concatenation:
      sub-commands run in the order they were queued. */
  lemma {:induction false} DrainAppend(q1: seq<Supplier>, q2: seq<Supplier>, key: Option<string>, note: Notification, next: nat)
    ensures var d1 := Drain(q1, key, note, next);
            var d2 := Drain(q2, key, note, d1.1);
            Drain(q1 + q2, key, note, next) == (d1.0 + d2.0, d2.1)
  {
    if q1 == [] {
      assert q1 + q2 == q2;
      var d2 := Drain(q2, key, note, next);
      assert [] + d2.0 == d2.0;
    } else {
      var a := Instantiate(q1[0], key, note, next);
      DrainAppend(q1[1..], q2, key, note, a.1);
      DrainConsAppend(q1, q2, key, note, next);
      DrainCons(q1, key, note, next);
      var t1 := Drain(q1[1..], key, note, a.1);
      Regroup(a.0, t1, Drain(q2, key, note, t1.1), Drain(q1[1..] + q2, key, note, a.1), Drain(q1 + q2, key, note, next));
    }
  }

  /** A trace `a` followed by the trace of `t1` then `d2` is `a` and `t1`
      followed by `d2`. */
  lemma Regroup(a: seq<Event>, t1: (seq<Event>, nat), d2: (seq<Event>, nat), tail: (seq<Event>, nat), whole: (seq<Event>, nat))
    requires tail == (t1.0 + d2.0, d2.1)
    requires whole == (a + tail.0, tail.1)
    ensures whole == ((a + t1.0) + d2.0, d2.1)
  {
    assert a + (t1.0 + d2.0) == (a + t1.0) + d2.0;
  }

  /** Draining `q1 + q2` starts with the head of `q1`. */
  lemma DrainConsAppend(q1: seq<Supplier>, q2: seq<Supplier>, key: Option<string>, note: Notification, next: nat)
    requires q1 != []
    ensures var a := Instantiate(q1[0], key, note, next);
            var t := Drain(q1[1..] + q2, key, note, a.1);
            Drain(q1 + q2, key, note, next) == (a.0 + t.0, t.1)
  {
    var q := q1 + q2;
    assert q[0] == q1[0] && q[1..] == q1[1..] + q2;
    DrainCons(q, key, note, next);
  }

  /** One step of the loop: the head supplier's command, then the rest. */
  lemma DrainCons(q: seq<Supplier>, key: Option<string>, note: Notification, next: nat)
    requires q != []
    ensures var a := Instantiate(q[0], key, note, next);
            var b := Drain(q[1..], key, note, a.1);
            Drain(q, key, note, next) == (a.0 + b.0, b.1)
  {
  }

  /** `addSubCommand(s)`: `s` goes to the back of the queue. */
  function AddSubCommand(m: MacroCommand, s: Supplier): (r: MacroCommand)
    ensures r.subCommands == m.subCommands + [s]
    ensures r.id == m.id && r.notifier == m.notifier
  {
    m.(subCommands := m.subCommands + [s])
  }

  /** `addSubCommand` for each supplier of `q`, front to back. */
  function AddSubCommands(m: MacroCommand, q: seq<Supplier>): (r: MacroCommand)
    decreases |q|
    ensures r.subCommands == m.subCommands + q
    ensures r.id == m.id && r.notifier == m.notifier
  {
    if q == [] then m
    else
      var r := AddSubCommands(AddSubCommand(m, q[0]), q[1..]);
      assert m.subCommands + [q[0]] + q[1..] == m.subCommands + q;
      r
  }

  /** `new MacroCommand()`: an empty queue, then `initializeMacroCommand`, which
      adds the suppliers `initial`. */
  function NewMacroCommand(id: ObjId, initial: seq<Supplier>): (m: MacroCommand)
    ensures m.subCommands == initial
    ensures m.id == id && m.notifier.key.None?
  {
    AddSubCommands(MacroCommand(id, [], Unkeyed), initial)
  }

  /** `execute(note)` on a MacroCommand: every queued sub-command runs, in
      FIFO order, keyed with the macro's key; the queue ends empty. */
  function Execute(m: MacroCommand, note: Notification, next: nat): (r: (MacroCommand, seq<Event>, nat))
    ensures r.0.subCommands == [] && r.0.id == m.id && r.0.notifier == m.notifier
    ensures r.2 >= next
    ensures m.subCommands == [] ==> r.1 == [] && r.2 == next
    ensures |r.1| >= 3 * |m.subCommands|
    ensures Allocates(r.1, next, r.2)
    ensures Uniform(r.1, m.notifier.key, note)
  {
    var d := Drain(m.subCommands, m.notifier.key, note, next);
    DrainTrace(m.subCommands, m.notifier.key, note, next);
    (m.(subCommands := []), d.0, d.1)
  }

  /** The same loop written as the source writes it: remove the head of the
      queue, `get()`, key and execute it, until the queue is empty. */
  method ExecuteLoop(m: MacroCommand, note: Notification, next: nat) returns (m': MacroCommand, events: seq<Event>, next': nat)
    ensures (m', events, next') == Execute(m, note, next)
  {
    var key := m.notifier.key;
    var queue := m.subCommands;
    events, next' := [], next;
    assert events + Drain(queue, key, note, next').0 == Drain(queue, key, note, next').0;
    while queue != []
      invariant Drain(m.subCommands, key, note, next)
             == (events + Drain(queue, key, note, next').0, Drain(queue, key, note, next').1)
      decreases |queue|
    {
      var s := queue[0];
      queue := queue[1..];
      var r := Instantiate(s, key, note, next');
      assert events + (r.0 + Drain(queue, key, note, r.1).0) == events + r.0 + Drain(queue, key, note, r.1).0;
      events, next' := events + r.0, r.1;
    }
    assert events + Drain(queue, key, note, next').0 == events;
    m' := m.(subCommands := []);
  }

  /** A sub-command added last runs last, after everything queued before it. */
  lemma ExecuteAfterAdd(m: MacroCommand, s: Supplier, note: Notification, next: nat)
    ensures var before := Execute(m, note, next);
            var last := Instantiate(s, m.notifier.key, note, before.2);
            Execute(AddSubCommand(m, s), note, next).1 == before.1 + last.0
  {
    var key := m.notifier.key;
    DrainAppend(m.subCommands, [s], key, note, next);
    var d1 := Drain(m.subCommands, key, note, next);
    var a := Instantiate(s, key, note, d1.1);
    assert Drain([s], key, note, d1.1).0 == a.0 + Drain([], key, note, a.1).0;
    assert a.0 + [] == a.0;
  }

  /** A second `execute` finds the queue empty and does nothing. */
  lemma ExecuteTwiceIsNoOp(m: MacroCommand, note: Notification, next: nat, note2: Notification, next2: nat)
    ensures var once := Execute(m, note, next);
            Execute(once.0, note2, next2) == (once.0, [], next2)
  {
  }
}

=== FILE: controller.dfy ===
/** The Controller of one core: notification names mapped to command
    suppliers, with the controller itself subscribed to the View once per
    commanded name. */
module Controllers {
  import opened Wrappers
  import opened Identity
  import opened Notifications
  import opened Events
  import opened Observers
  import opened Mediators
  import opened Views
  import opened Commands

  datatype Controller = Controller(id: ObjId, key: string, commandMap: map<string, Supplier>)

  /** The object built by `new Controller(key)`, before it looks up its View:
      an empty command map. */
  function NewController(id: ObjId, key: string): (c: Controller)
    ensures c.id == id && c.key == key && c.commandMap == map[]
  {
    Controller(id, key, map[])
  }

  /** The observer `registerCommand` creates: `this::executeCommand` with the
      controller as context. */
  function ControllerObserver(c: Controller): (o: Observer)
    ensures o.context == c.id && o.notify == ExecuteCommand(c.id)
  {
    NewObserver(ExecuteCommand(c.id), c.id)
  }

  function HasCommand(c: Controller, name: string): bool
  {
    name in c.commandMap
  }

  /** `registerCommand`: subscribe to `name` on the View only when no supplier
      is mapped to it yet; then map `name` to `s`, replacing any old one. */
  function RegisterCommand(c: Controller, v: View, name: string, s: Supplier): (r: (Controller, View))
    ensures HasCommand(r.0, name) && r.0.commandMap[name] == s
    ensures r.0.commandMap == c.commandMap[name := s]
    ensures r.0.id == c.id && r.0.key == c.key
    ensures !HasCommand(c, name) ==> r.1 == RegisterObserver(v, name, ControllerObserver(c))
    ensures HasCommand(c, name) ==> r.1 == v
  {
    var v' := if !HasCommand(c, name) then RegisterObserver(v, name, ControllerObserver(c)) else v;
    (c.(commandMap := c.commandMap[name := s]), v')
  }

  /** `removeCommand`: when a supplier is mapped to `name`, unsubscribe the
      controller from `name` and drop the mapping; otherwise do nothing.
      Unsubscribing throws if the View has no list for `name`. */
  function RemoveCommand(c: Controller, v: View, name: string): (r: Result<(Controller, View), Fault>)
    ensures !HasCommand(c, name) ==> r == Success((c, v))
    ensures HasCommand(c, name) && name in v.observerMap ==>
      r == Success((c.(commandMap := c.commandMap - {name}), RemoveObserver(v, name, c.id)))
    ensures HasCommand(c, name) && name !in v.observerMap ==> r == Failure(NullObserverList(name))
    ensures r.Success? ==> !HasCommand(r.value.0, name)
  {
    if !HasCommand(c, name) then Success((c, v))
    else if name !in v.observerMap then Failure(NullObserverList(name))
    else Success((c.(commandMap := c.commandMap - {name}), RemoveObserver(v, name, c.id)))
  }

  /** `executeCommand`: nothing when no supplier is mapped to the name;
      otherwise one `get()` of that supplier gives a new command, which is
      keyed with the controller's key and executed once with `note`. */
  function ExecuteCommandFor(c: Controller, note: Notification, next: nat): (r: (seq<Event>, nat))
    ensures note.name !in c.commandMap ==> r == ([], next)
    ensures note.name in c.commandMap ==>
      && r.1 > next
      && |r.0| >= 3
      && r.0[0] == Supplied(c.commandMap[note.name].id, ObjId(next))
      && r.0[1] == KeyAssigned(ObjId(next), Some(c.key))
      && r.0[2] == Executed(ObjId(next), note)
    ensures r.1 >= next
    ensures Allocates(r.0, next, r.1)
    ensures Uniform(r.0, Some(c.key), note)
  {
    if note.name !in c.commandMap then ([], next)
    else
      InstantiateTrace(c.commandMap[note.name], Some(c.key), note, next);
      Instantiate(c.commandMap[note.name], Some(c.key), note, next)
  }

  /** The controller is subscribed exactly once to every commanded name and
      to no other name. */
  ghost predicate CommandsSubscribed(c: Controller, v: View)
  {
    forall n :: ContextCount(ObserversOf(v, n), c.id) == if n in c.commandMap then 1 else 0
  }

  /** The base case: a new Controller, whose map is empty, is subscribed
      correctly to any View in which no observer has its identity, in
      particular to the new View of its core. */
  lemma NewControllerSubscribed(id: ObjId, key: string, v: View)
    requires forall n :: ContextCount(ObserversOf(v, n), id) == 0
    ensures CommandsSubscribed(NewController(id, key), v)
    ensures CommandsSubscribed(NewController(id, key), NewView(key))
  {
    assert forall n :: ObserversOf(NewView(key), n) == [];
  }

  lemma RegisterCommandKeepsSubscription(c: Controller, v: View, name: string, s: Supplier)
    requires CommandsSubscribed(c, v)
    ensures var r := RegisterCommand(c, v, name, s); CommandsSubscribed(r.0, r.1)
  {
    var r := RegisterCommand(c, v, name, s);
    if !HasCommand(c, name) {
      forall n ensures ContextCount(ObserversOf(r.1, n), c.id) == if n in r.0.commandMap then 1 else 0 {
        if n == name {
          ContextCountAppend(ObserversOf(v, n), [ControllerObserver(c)], c.id);
        }
      }
    }
  }

  /** Registering a second supplier for a name replaces the supplier and
      leaves the View as the first registration left it. */
  lemma ReRegisterAddsNoObserver(c: Controller, v: View, name: string, s1: Supplier, s2: Supplier)
    ensures var first := RegisterCommand(c, v, name, s1);
            var second := RegisterCommand(first.0, first.1, name, s2);
            second.1 == first.1 && second.0.commandMap[name] == s2
  {
  }

  /** Under the subscription invariant `removeCommand` never reaches the
      View's null dereference, and the invariant still holds afterwards. */
  lemma RemoveCommandKeepsSubscription(c: Controller, v: View, name: string)
    requires CommandsSubscribed(c, v)
    ensures RemoveCommand(c, v, name).Success?
    ensures var r := RemoveCommand(c, v, name).value; CommandsSubscribed(r.0, r.1)
  {
    if HasCommand(c, name) {
      assert ContextCount(ObserversOf(v, name), c.id) == 1;
      assert name in v.observerMap;
      var r := RemoveCommand(c, v, name).value;
      forall n ensures ContextCount(ObserversOf(r.1, n), c.id) == if n in r.0.commandMap then 1 else 0 {
        if n != name {
          assert ObserversOf(r.1, n) == ObserversOf(v, n);
        }
      }
    }
  }

  /** Observers with other contexts, registered or removed directly, do not
      disturb the controller's subscriptions. */
  lemma OtherObserversKeepSubscription(c: Controller, v: View, name: string, o: Observer)
    requires CommandsSubscribed(c, v)
    requires o.context != c.id
    ensures CommandsSubscribed(c, RegisterObserver(v, name, o))
    ensures name in v.observerMap ==> CommandsSubscribed(c, RemoveObserver(v, name, o.context))
  {
    var r := RegisterObserver(v, name, o);
    forall n ensures ContextCount(ObserversOf(r, n), c.id) == if n in c.commandMap then 1 else 0 {
      if n == name {
        ContextCountAppend(ObserversOf(v, n), [o], c.id);
      }
    }
  }

  /** Mediators, whose identity differs from the controller's, do not disturb
      the controller's subscriptions when registered or removed. */
  lemma MediatorsKeepSubscription(c: Controller, v: View, m: Mediator, name: string)
    requires CommandsSubscribed(c, v)
    requires m.id != c.id
    requires name in v.mediatorMap ==> v.mediatorMap[name].id != c.id
    ensures CommandsSubscribed(c, RegisterMediator(v, m).0)
    ensures RemoveMediator(v, name).Success? ==> CommandsSubscribed(c, RemoveMediator(v, name).value.0)
  {
    var r := RegisterMediator(v, m).0;
    if m.name !in v.mediatorMap {
      forall n ensures ContextCount(ObserversOf(r, n), c.id) == if n in c.commandMap then 1 else 0 {
        ContextCountAppend(ObserversOf(v, n), Copies(MediatorObserver(m), multiset(m.interests)[n]), c.id);
        ContextCountCopies(MediatorObserver(m), multiset(m.interests)[n], c.id);
      }
    }
  }

  /** Each dispatch gets its own command: two dispatches in a row supply two
      different command objects, since every `get()` is taken to build a new one. */
  lemma FreshCommandPerDispatch(c: Controller, note1: Notification, note2: Notification, next: nat)
    requires note1.name in c.commandMap && note2.name in c.commandMap
    ensures var first := ExecuteCommandFor(c, note1, next);
            var second := ExecuteCommandFor(c, note2, first.1);
            first.0[0].command != second.0[0].command
  {
  }
}

=== FILE: events.dfy ===
/** The trace vocabulary. User code (notification handlers, command bodies,
    suppliers, lifecycle hooks) is opaque to the kernel, so the model records
    each call the kernel makes into it as an `Event`, in the order made. */
module Events {
  import opened Wrappers
  import opened Identity
  import opened Notifications

  /** The `Consumer<INotification>` an observer wraps. */
  datatype Callback =
    | HandleNotification(mediator: ObjId)   // `mediator::handleNotification`
    | ExecuteCommand(controller: ObjId)     // `controller::executeCommand`
    | UserCallback(tag: nat)                // any other consumer

  datatype Event =
    /** an observer's callback was invoked with the notification */
    | Notified(callback: Callback, note: Notification)
    /** `supplier.get()` was called and returned the new command `command` */
    | Supplied(supplier: nat, command: ObjId)
    /** `initializeNotifier(key)` was called on `obj` */
    | KeyAssigned(obj: ObjId, key: Option<string>)
    /** `execute(note)` was called on the command `command` */
    | Executed(command: ObjId, note: Notification)
    /** `onRegister()` was called on `obj`; `visible` says whether the registry
        held `obj` under its name when the hook ran */
    | Registered(obj: ObjId, visible: bool)
    /** `onRemove()` was called on `obj`; `visible` as for `Registered` */
    | Removed(obj: ObjId, visible: bool)
}

=== FILE: facade.dfy ===
/** The static multiton tables of Model, View, Controller and Facade, held
    in one `World` record, and the Facade: core construction, core removal
    and notification sending. */
module Facades {
  import opened Wrappers
  import opened Identity
  import opened Notifications
  import opened Events
  import opened Observers
  import opened Views
  import opened Commands
  import opened Controllers
  import opened Models
  import Multiton

  /** A Facade object; the flags say whether its `model`, `controller` and
      `view` reference fields are set. */
  datatype Facade = Facade(key: string, hasModel: bool, hasController: bool, hasView: bool)

  /** The four static `instanceMap`s, and the next free object identity for
      objects the framework creates (controllers, commands). */
  datatype World = World(
    models: map<string, Model>,
    views: map<string, View>,
    controllers: map<string, Controller>,
    facades: map<string, Facade>,
    nextId: nat)

  const EmptyWorld := World(map[], map[], map[], map[], 0)

  /** The tables agree with each other: every core with a Facade has all
      three actors, every Controller's View exists, and each instance is
      stored under its own key. */
  ghost predicate Consistent(w: World)
  {
    && (forall k :: k in w.facades ==>
          && k in w.models && k in w.controllers && k in w.views
          && w.facades[k] == Facade(k, true, true, true))
    && (forall k :: k in w.controllers ==> k in w.views && w.controllers[k].key == k)
    && (forall k :: k in w.views ==> w.views[k].key == k)
    && (forall k :: k in w.models ==> w.models[k].key == k)
  }

  // ---------------------------------------------------------------- Model

  /** `new Model(key)`: throws when the key is already in the table,
      otherwise installs an empty Model under it. */
  function ConstructModel(w: World, key: string): (r: Result<World, Fault>)
    ensures key in w.models ==> r == Failure(DuplicateMultiton(ModelActor))
    ensures key !in w.models ==> r.Success? && r.value.models == w.models[key := NewModel(key)]
    ensures r.Success? ==>
      (r.value.views == w.views && r.value.controllers == w.controllers
       && r.value.facades == w.facades && r.value.nextId == w.nextId)
  {
    if key in w.models then Failure(DuplicateMultiton(ModelActor))
    else Success(w.(models := w.models[key := NewModel(key)]))
  }

  /** `Model.getInstance(key, k -> new Model(k))`; the second component lists
      the constructors that ran. */
  function ModelGetInstance(w: World, key: string): (r: (World, seq<Actor>))
    ensures key in r.0.models
    ensures key in w.models ==> r == (w, [])
    ensures key !in w.models ==> ConstructModel(w, key) == Success(r.0) && r.1 == [ModelActor]
    ensures r.0.models == (if key in w.models then w.models else w.models[key := NewModel(key)])
    ensures r.0.views == w.views && r.0.controllers == w.controllers
    ensures r.0.facades == w.facades && r.0.nextId == w.nextId
  {
    var t := Multiton.GetInstance(w.models, key, NewModel);
    (w.(models := t.0), if key in w.models then [] else [ModelActor])
  }

  function RemoveModel(w: World, key: string): (r: World)
    ensures key !in r.models && r.models == w.models - {key}
    ensures r.nextId == w.nextId
    ensures r.views == w.views && r.controllers == w.controllers && r.facades == w.facades
  {
    w.(models := Multiton.Remove(w.models, key))
  }

  // ----------------------------------------------------------------- View

  /** `new View(key)` as written: the duplicate check builds an `Error` but
      does not throw it, so the constructor always installs a new, empty
      View, replacing whatever was stored under the key. */
  function ConstructViewAsWritten(w: World, key: string): (r: World)
    ensures r.views == w.views[key := NewView(key)]
    ensures r.models == w.models && r.controllers == w.controllers && r.facades == w.facades
  {
    w.(views := w.views[key := NewView(key)])
  }

  /** `new View(key)` as evidently intended, like `new Model` and
      `new Controller`: a key already in the table throws. */
  function ConstructView(w: World, key: string): (r: Result<World, Fault>)
    ensures key in w.views ==> r == Failure(DuplicateMultiton(ViewActor))
    ensures key !in w.views ==> r == Success(ConstructViewAsWritten(w, key))
  {
    if key in w.views then Failure(DuplicateMultiton(ViewActor))
    else Success(ConstructViewAsWritten(w, key))
  }

  /** The discrepancy: constructing a View a second time gives the table
      entry an empty View, losing the first View's observers and mediators,
      where the corrected constructor refuses. A Facade or Controller already
      built keeps using the first View through its own reference. */
  lemma ViewConstructorDiscardsExisting(key: string, o: Observer)
    ensures var v := RegisterObserver(NewView(key), "N", o);
            var w := EmptyWorld.(views := map[key := v]);
            && ObserversOf(w.views[key], "N") == [o]
            && ObserversOf(ConstructViewAsWritten(w, key).views[key], "N") == []
            && ConstructView(w, key) == Failure(DuplicateMultiton(ViewActor))
  {
  }

  /** `View.getInstance(key, k -> new View(k))`. It only constructs for an
      absent key, where both constructors agree. */
  function ViewGetInstance(w: World, key: string): (r: (World, seq<Actor>))
    ensures key in r.0.views
    ensures key in w.views ==> r == (w, [])
    ensures key !in w.views ==> ConstructView(w, key) == Success(r.0) && r.1 == [ViewActor]
    ensures r.0.views == (if key in w.views then w.views else w.views[key := NewView(key)])
    ensures r.0.models == w.models && r.0.controllers == w.controllers
    ensures r.0.facades == w.facades && r.0.nextId == w.nextId
  {
    var t := Multiton.GetInstance(w.views, key, NewView);
    (w.(views := t.0), if key in w.views then [] else [ViewActor])
  }

  function RemoveView(w: World, key: string): (r: World)
    ensures key !in r.views && r.views == w.views - {key}
    ensures r.nextId == w.nextId
    ensures r.models == w.models && r.controllers == w.controllers && r.facades == w.facades
  {
    w.(views := Multiton.Remove(w.views, key))
  }

  // ----------------------------------------------------------- Controller

  /** The body of `new Controller(key)` past its duplicate check: a new
      object installs itself under the key, then `initializeController`
      fetches the View for the same key, constructing it if absent. */
  function InstallController(w: World, key: string): (r: (World, seq<Actor>))
    ensures r.0.controllers == w.controllers[key := NewController(ObjId(w.nextId), key)]
    ensures r.0.nextId == w.nextId + 1
    ensures key in r.0.views
    ensures key in w.views ==> r.0.views == w.views && r.1 == [ControllerActor]
    ensures key !in w.views ==> r.0.views == w.views[key := NewView(key)] && r.1 == [ControllerActor, ViewActor]
    ensures r.0.models == w.models && r.0.facades == w.facades
  {
    var c := NewController(ObjId(w.nextId), key);
    var installed := w.(controllers := w.controllers[key := c], nextId := w.nextId + 1);
    var v := ViewGetInstance(installed, key);
    (v.0, [ControllerActor] + v.1)
  }

  /** `new Controller(key)`: throws when the key is already in the table. */
  function ConstructController(w: World, key: string): (r: Result<(World, seq<Actor>), Fault>)
    ensures key in w.controllers ==> r == Failure(DuplicateMultiton(ControllerActor))
    ensures key !in w.controllers ==> r == Success(InstallController(w, key))
  {
    if key in w.controllers then Failure(DuplicateMultiton(ControllerActor))
    else Success(InstallController(w, key))
  }

  /** `Controller.getInstance(key, k -> new Controller(k))`. */
  function ControllerGetInstance(w: World, key: string): (r: (World, seq<Actor>))
    ensures key in r.0.controllers
    ensures key in w.controllers ==> r == (w, [])
    ensures key !in w.controllers ==> ConstructController(w, key) == Success(r)
  {
    if key in w.controllers then (w, []) else InstallController(w, key)
  }

  function RemoveController(w: World, key: string): (r: World)
    ensures key !in r.controllers && r.controllers == w.controllers - {key}
    ensures r.nextId == w.nextId
    ensures r.models == w.models && r.views == w.views && r.facades == w.facades
  {
    w.(controllers := Multiton.Remove(w.controllers, key))
  }

  // --------------------------------------------------------------- Facade

  /** The position of an actor in the initialization order. */
  function Rank(a: Actor): nat
  {
    match a
    case FacadeActor => 0
    case ModelActor => 1
    case ControllerActor => 2
    case ViewActor => 3
  }

  /** Constructors ran strictly in the order Facade, Model, Controller, View. */
  ghost predicate InInitOrder(created: seq<Actor>)
  {
    forall i, j :: 0 <= i < j < |created| ==> Rank(created[i]) < Rank(created[j])
  }

  /** `initializeModel`: skipped when the field is already set. */
  function InitializeModel(f: Facade, w: World): (r: (Facade, World, seq<Actor>))
    ensures r.0 == f.(hasModel := true)
    ensures f.hasModel ==> r.1 == w && r.2 == []
    ensures !f.hasModel ==> (r.1, r.2) == ModelGetInstance(w, f.key)
  {
    if f.hasModel then (f, w, [])
    else
      var g := ModelGetInstance(w, f.key);
      (f.(hasModel := true), g.0, g.1)
  }

  /** `initializeController`: skipped when the field is already set. */
  function InitializeController(f: Facade, w: World): (r: (Facade, World, seq<Actor>))
    ensures r.0 == f.(hasController := true)
    ensures f.hasController ==> r.1 == w && r.2 == []
    ensures !f.hasController ==> (r.1, r.2) == ControllerGetInstance(w, f.key)
  {
    if f.hasController then (f, w, [])
    else
      var g := ControllerGetInstance(w, f.key);
      (f.(hasController := true), g.0, g.1)
  }

  /** `initializeView`: skipped when the field is already set. */
  function InitializeView(f: Facade, w: World): (r: (Facade, World, seq<Actor>))
    ensures r.0 == f.(hasView := true)
    ensures f.hasView ==> r.1 == w && r.2 == []
    ensures !f.hasView ==> (r.1, r.2) == ViewGetInstance(w, f.key)
  {
    if f.hasView then (f, w, [])
    else
      var g := ViewGetInstance(w, f.key);
      (f.(hasView := true), g.0, g.1)
  }

  /** `initializeFacade`: Model, then Controller, then View. */
  function InitializeFacade(f: Facade, w: World): (r: (Facade, World, seq<Actor>))
    ensures r.0 == Facade(f.key, true, true, true)
    ensures InInitOrder(r.2)
    ensures f.hasModel && f.hasController && f.hasView ==> r == (f, w, [])
  {
    var m := InitializeModel(f, w);
    var c := InitializeController(m.0, m.1);
    var v := InitializeView(c.0, c.1);
    (v.0, v.1, m.2 + c.2 + v.2)
  }

  /** The constructors a new Facade sets off, given which actors the key
      already has. */
  function FreshActors(w: World, key: string): seq<Actor>
  {
    [FacadeActor]
    + (if key !in w.models then [ModelActor] else [])
    + (if key !in w.controllers then [ControllerActor] else [])
    + (if key !in w.views then [ViewActor] else [])
  }

  lemma FreshActorsInOrder(w: World, key: string)
    ensures InInitOrder(FreshActors(w, key))
  {
  }

  /** `initializeFacade` on a Facade with no field set fetches, and where
      missing constructs, each actor for the key. */
  lemma {:induction false} InitializeFreshFacade(w: World, key: string)
    ensures var r := InitializeFacade(Facade(key, false, false, false), w);
      && [FacadeActor] + r.2 == FreshActors(w, key)
      && r.1.models == (if key in w.models then w.models else w.models[key := NewModel(key)])
      && r.1.views == (if key in w.views then w.views else w.views[key := NewView(key)])
      && r.1.controllers == (if key in w.controllers then w.controllers
                             else w.controllers[key := NewController(ObjId(w.nextId), key)])
      && r.1.facades == w.facades
      && r.1.nextId == (if key in w.controllers then w.nextId else w.nextId + 1)
  {
    var f := Facade(key, false, false, false);
    var m := InitializeModel(f, w);
    var c := InitializeController(m.0, m.1);
    var v := InitializeView(c.0, c.1);
    assert m.2 == (if key !in w.models then [ModelActor] else []);
    if key in w.controllers {
      assert c.2 == [];
      assert v.2 == (if key !in w.views then [ViewActor] else []);
    } else {
      assert c.2 == [ControllerActor] + (if key !in w.views then [ViewActor] else []);
      assert v.2 == [];
    }
  }

  /** The body of `new Facade(key)` past its duplicate check: store the key,
      install the Facade, then initialize the actors. */
  function InstallFacade(w: World, key: string): (r: (World, seq<Actor>))
    requires key !in w.facades
    ensures r.0.facades == w.facades[key := Facade(key, true, true, true)]
    ensures r.0.models == (if key in w.models then w.models else w.models[key := NewModel(key)])
    ensures r.0.views == (if key in w.views then w.views else w.views[key := NewView(key)])
    ensures r.0.controllers == (if key in w.controllers then w.controllers
                                else w.controllers[key := NewController(ObjId(w.nextId), key)])
    ensures r.0.nextId == (if key in w.controllers then w.nextId else w.nextId + 1)
    ensures r.1 == FreshActors(w, key)
    ensures InInitOrder(r.1)
  {
    var f := Facade(key, false, false, false);
    var installed := w.(facades := w.facades[key := f]);
    var init := InitializeFacade(f, installed);
    InitializeFreshFacade(installed, key);
    FreshActorsInOrder(w, key);
    assert FreshActors(installed, key) == FreshActors(w, key);
    assert installed.facades[key := init.0] == w.facades[key := init.0];
    (init.1.(facades := init.1.facades[key := init.0]), [FacadeActor] + init.2)
  }

  /** `new Facade(key)`: throws when the key is already in the table. */
  function ConstructFacade(w: World, key: string): (r: Result<(World, seq<Actor>), Fault>)
    ensures key in w.facades ==> r == Failure(DuplicateMultiton(FacadeActor))
    ensures key !in w.facades ==> r == Success(InstallFacade(w, key))
  {
    if key in w.facades then Failure(DuplicateMultiton(FacadeActor))
    else Success(InstallFacade(w, key))
  }

  /** `Facade.getInstance(key, k -> new Facade(k))`. */
  function FacadeGetInstance(w: World, key: string): (r: (World, seq<Actor>))
    ensures key in r.0.facades
    ensures key in w.facades ==> r == (w, [])
    ensures key !in w.facades ==> ConstructFacade(w, key) == Success(r)
  {
    if key in w.facades then (w, []) else InstallFacade(w, key)
  }

  /** A brand-new core is built in the order Facade, Model, Controller, View. */
  lemma NewCoreInitOrder(key: string)
    ensures FacadeGetInstance(EmptyWorld, key).1 == [FacadeActor, ModelActor, ControllerActor, ViewActor]
  {
  }

  function HasCore(w: World, key: string): bool
  {
    key in w.facades
  }

  /** `removeCore`: nothing for an unknown key; otherwise the key leaves the
      Model, View, Controller and Facade tables, in that order. */
  function RemoveCore(w: World, key: string): (r: World)
    ensures !HasCore(w, key) ==> r == w
    ensures HasCore(w, key) ==>
      && r.models == w.models - {key} && r.views == w.views - {key}
      && r.controllers == w.controllers - {key} && r.facades == w.facades - {key}
    ensures !HasCore(r, key)
    ensures r.nextId == w.nextId
  {
    if !HasCore(w, key) then w
    else
      var w1 := RemoveModel(w, key);
      var w2 := RemoveView(w1, key);
      var w3 := RemoveController(w2, key);
      w3.(facades := Multiton.Remove(w3.facades, key))
  }

  /** `hasCore` follows the Facade table: true once `getInstance` has run for
      the key, false after `removeCore`, and neither touches other keys. */
  lemma CoreLifecycle(w: World, key: string, other: string)
    requires other != key
    ensures HasCore(FacadeGetInstance(w, key).0, key)
    ensures !HasCore(RemoveCore(w, key), key)
    ensures HasCore(FacadeGetInstance(w, key).0, other) == HasCore(w, other)
    ensures HasCore(RemoveCore(w, key), other) == HasCore(w, other)
  {
  }

  lemma GetInstanceKeepsConsistent(w: World, key: string)
    requires Consistent(w)
    ensures Consistent(FacadeGetInstance(w, key).0)
  {
    if key !in w.facades {
      var r := InstallFacade(w, key).0;
      assert r == FacadeGetInstance(w, key).0;
      forall k | k in r.facades
        ensures k in r.models && k in r.controllers && k in r.views && r.facades[k] == Facade(k, true, true, true)
      {
        if k != key {
          assert k in w.facades;
        }
      }
      forall k | k in r.controllers
        ensures k in r.views && r.controllers[k].key == k
      {
        if k != key {
          assert k in w.controllers;
        }
      }
      forall k | k in r.views
        ensures r.views[k].key == k
      {
        if k != key {
          assert k in w.views;
        }
      }
      forall k | k in r.models
        ensures r.models[k].key == k
      {
        if k != key {
          assert k in w.models;
        }
      }
    }
  }

  lemma RemoveCoreKeepsConsistent(w: World, key: string)
    requires Consistent(w)
    ensures Consistent(RemoveCore(w, key))
  {
  }

  /** A removed core can be created afresh: `getInstance` then builds new,
      empty actors for the key. */
  lemma RemoveCoreThenRecreate(w: World, key: string)
    requires Consistent(w) && HasCore(w, key)
    ensures var r := FacadeGetInstance(RemoveCore(w, key), key);
            && r.1 == [FacadeActor, ModelActor, ControllerActor, ViewActor]
            && r.0.views[key] == NewView(key)
            && r.0.models[key] == NewModel(key)
            && r.0.controllers[key].commandMap == map[]
  {
  }

  // ------------------------------------------------------------- Commands

  /** `facade.registerCommand`, forwarded to the core's Controller. */
  function RegisterCommand(w: World, key: string, name: string, s: Supplier): (r: World)
    requires key in w.controllers && key in w.views
    ensures key in r.controllers && key in r.views
    ensures (r.controllers[key], r.views[key]) == Controllers.RegisterCommand(w.controllers[key], w.views[key], name, s)
    ensures r.models == w.models && r.facades == w.facades && r.nextId == w.nextId
    ensures r.controllers.Keys == w.controllers.Keys && r.views.Keys == w.views.Keys
  {
    var cv := Controllers.RegisterCommand(w.controllers[key], w.views[key], name, s);
    w.(controllers := w.controllers[key := cv.0], views := w.views[key := cv.1])
  }

  // ----------------------------------------------------------- Dispatch

  /** The observer notifications in a trace, in order. */
  function DeliveriesIn(events: seq<Event>): (r: seq<Event>)
    ensures |r| <= |events|
    ensures forall i :: 0 <= i < |r| ==> r[i].Notified?
  {
    if events == [] then []
    else (if events[0].Notified? then [events[0]] else []) + DeliveriesIn(events[1..])
  }

  lemma {:induction false} DeliveriesInAppend(a: seq<Event>, b: seq<Event>)
    ensures DeliveriesIn(a + b) == DeliveriesIn(a) + DeliveriesIn(b)
  {
    if a != [] {
      assert (a + b)[1..] == a[1..] + b;
      DeliveriesInAppend(a[1..], b);
    } else {
      assert a + b == b;
    }
  }

  lemma {:induction false} CommandTraceHasNoDeliveries(events: seq<Event>, key: Option<string>, note: Notification)
    requires Uniform(events, key, note)
    ensures DeliveriesIn(events) == []
  {
    if events != [] {
      assert events[0] == events[0];
      CommandTraceHasNoDeliveries(events[1..], key, note);
    }
  }

  /** What one observer notification sets off: a callback into this core's
      Controller runs `executeCommand`; any other callback is opaque. */
  function Perform(w: World, key: string, e: Event, next: nat): (r: (seq<Event>, nat))
    ensures r.1 >= next
    ensures DeliveriesIn(r.0) == []
    ensures e.Notified? && e.callback.ExecuteCommand? && key in w.controllers
            && w.controllers[key].id == e.callback.controller
            ==> r == ExecuteCommandFor(w.controllers[key], e.note, next)
    ensures !(e.Notified? && e.callback.ExecuteCommand? && key in w.controllers
              && w.controllers[key].id == e.callback.controller)
            ==> r == ([], next)
  {
    if e.Notified? && e.callback.ExecuteCommand? && key in w.controllers
       && w.controllers[key].id == e.callback.controller
    then
      var r := ExecuteCommandFor(w.controllers[key], e.note, next);
      CommandTraceHasNoDeliveries(r.0, Some(w.controllers[key].key), e.note);
      r
    else ([], next)
  }

  /** Each notification of `deliveries`, followed by what it set off. */
  function Expand(w: World, key: string, deliveries: seq<Event>, next: nat): (r: (seq<Event>, nat))
    decreases |deliveries|
    ensures r.1 >= next
  {
    if deliveries == [] then ([], next)
    else
      var h := Perform(w, key, deliveries[0], next);
      var t := Expand(w, key, deliveries[1..], h.1);
      ([deliveries[0]] + h.0 + t.0, t.1)
  }

  /** Expanding keeps the notifications themselves, in order. */
  lemma {:induction false} ExpandKeepsDeliveries(w: World, key: string, deliveries: seq<Event>, next: nat)
    requires forall i :: 0 <= i < |deliveries| ==> deliveries[i].Notified?
    ensures DeliveriesIn(Expand(w, key, deliveries, next).0) == deliveries
    decreases |deliveries|
  {
    if deliveries != [] {
      var h := Perform(w, key, deliveries[0], next);
      var t := Expand(w, key, deliveries[1..], h.1);
      ExpandKeepsDeliveries(w, key, deliveries[1..], h.1);
      DeliveriesInAppend([deliveries[0]] + h.0, t.0);
      DeliveriesInAppend([deliveries[0]], h.0);
      assert DeliveriesIn([deliveries[0]]) == [deliveries[0]];
      assert deliveries == [deliveries[0]] + deliveries[1..];
    }
  }

  /** A dispatch to a single observer: the notification, then what it set off. */
  lemma ExpandOne(w: World, key: string, d: Event, next: nat)
    ensures Expand(w, key, [d], next) == ([d] + Perform(w, key, d, next).0, Perform(w, key, d, next).1)
  {
    assert [d][1..] == [];
    var h := Perform(w, key, d, next);
    assert [d] + h.0 + [] == [d] + h.0;
  }

  /** `facade.notifyObservers(note)`: the core's View notifies its observers;
      commands that run get fresh identities from the world's counter. */
  function NotifyObservers(w: World, key: string, note: Notification): (r: (World, seq<Event>))
    requires key in w.views
    ensures r.0 == w.(nextId := r.0.nextId) && r.0.nextId >= w.nextId
    ensures DeliveriesIn(r.1) == Views.NotifyObservers(w.views[key], note)
  {
    var deliveries := Views.NotifyObservers(w.views[key], note);
    var ex := Expand(w, key, deliveries, w.nextId);
    ExpandKeepsDeliveries(w, key, deliveries, w.nextId);
    (w.(nextId := ex.1), ex.0)
  }

  /** `sendNotification(name, body, type)`: build the notification and hand
      it to the View. */
  function SendNotification(w: World, key: string, name: string, body: Option<Body>, noteType: Option<string>): (r: (World, seq<Event>))
    requires key in w.views
    ensures r.0 == w.(nextId := r.0.nextId)
    ensures DeliveriesIn(r.1) == Views.NotifyObservers(w.views[key], Notification(name, body, noteType))
  {
    NotifyObservers(w, key, NewNotification(name, body, noteType))
  }

  /** `sendNotification(name, body)`: the type is null. */
  function SendNotificationWithBody(w: World, key: string, name: string, body: Option<Body>): (r: (World, seq<Event>))
    requires key in w.views
    ensures r == SendNotification(w, key, name, body, None)
    ensures DeliveriesIn(r.1) == Views.NotifyObservers(w.views[key], Notification(name, body, None))
  {
    NotifyObservers(w, key, NewNotificationWithBody(name, body))
  }

  /** `sendNotification(name)`: body and type are null. */
  function SendNamedNotification(w: World, key: string, name: string): (r: (World, seq<Event>))
    requires key in w.views
    ensures r == SendNotification(w, key, name, None, None)
    ensures DeliveriesIn(r.1) == Views.NotifyObservers(w.views[key], Notification(name, None, None))
  {
    NotifyObservers(w, key, NewNamedNotification(name))
  }
}

=== FILE: identity.dfy ===
/** Object identity and the fatal conditions of the kernel. */
module Identity {

  /** The identity of a Java object: two references are `==` exactly when
      their `ObjId`s are equal. */
  datatype ObjId = ObjId(n: nat)

  /** The actors a core is made of; used to name the multiton table involved
      in a failure and to record the construction order of a core. */
  datatype Actor = ModelActor | ViewActor | ControllerActor | FacadeActor

  /** What a kernel call can throw. */
  datatype Fault =
    | DuplicateMultiton(actor: Actor)   // constructor called for a key already in its table
    | NotifierUninitialized             // `getFacade` before `initializeNotifier`
    | NullObserverList(name: string)    // `removeObserver` on a name with no observer list
}

=== FILE: mediator.dfy ===
/** The Mediator base class: a named view component with a list of
    notification interests. */
module Mediators {
  import opened Wrappers
  import opened Identity
  import opened Notifiers

  /** The name used when a mediator is constructed with a null name. */
  const NAME := "Mediator"

  /** A mediator object. `interests` is what `listNotificationInterests`
      returns; a subclass that overrides it is a mediator with a non-empty
      `interests`. */
  datatype Mediator = Mediator(
    id: ObjId,
    name: string,
    interests: seq<string>,
    viewComponent: Option<ObjId>,
    notifier: Notifier)

  /** `new Mediator(name, viewComponent)`. */
  function NewMediator(id: ObjId, name: Option<string>, viewComponent: Option<ObjId>): (m: Mediator)
    ensures name.None? ==> m.name == NAME
    ensures name.Some? ==> m.name == name.value
    ensures m.interests == []
    ensures m.viewComponent == viewComponent
    ensures m.id == id && m.notifier.key.None?
  {
    Mediator(id, name.GetOr(NAME), [], viewComponent, Unkeyed)
  }

  /** `new Mediator(name)`. */
  function NewNamedMediator(id: ObjId, name: Option<string>): (m: Mediator)
    ensures m == NewMediator(id, name, None)
    ensures m.viewComponent.None?
  {
    NewMediator(id, name, None)
  }

  /** `new Mediator()`. */
  function NewDefaultMediator(id: ObjId): (m: Mediator)
    ensures m.name == NAME && m.interests == [] && m.viewComponent.None?
  {
    NewMediator(id, None, None)
  }

  function GetMediatorName(m: Mediator): string
  {
    m.name
  }

  function ListNotificationInterests(m: Mediator): seq<string>
  {
    m.interests
  }

  function GetViewComponent(m: Mediator): Option<ObjId>
  {
    m.viewComponent
  }

  function SetViewComponent(m: Mediator, c: Option<ObjId>): (r: Mediator)
    ensures r.id == m.id && r.name == m.name && r.interests == m.interests && r.notifier == m.notifier
  {
    m.(viewComponent := c)
  }

  /** A non-null constructor name is what `getMediatorName` reports. */
  lemma NameIsKept(id: ObjId, name: string, c: Option<ObjId>)
    ensures GetMediatorName(NewMediator(id, Some(name), c)) == name
  {
  }

  /** `getViewComponent` returns what `setViewComponent` stored last. */
  lemma ViewComponentRoundTrip(m: Mediator, c: Option<ObjId>, d: Option<ObjId>)
    ensures GetViewComponent(SetViewComponent(m, c)) == c
    ensures SetViewComponent(SetViewComponent(m, c), d) == SetViewComponent(m, d)
  {
  }
}

=== FILE: model.dfy ===
/** The Model of one core: proxies stored by name. */
module Models {
  import opened Wrappers
  import opened Identity
  import opened Events
  import opened Notifiers
  import opened Proxies

  datatype Model = Model(key: string, proxyMap: map<string, Proxy>)

  /** The object built by `new Model(key)`: an empty proxy map. */
  function NewModel(key: string): (m: Model)
    ensures m.key == key && m.proxyMap == map[]
  {
    Model(key, map[])
  }

  /** `registerProxy`: key the proxy with the model's key, store it under its
      name (silently replacing any proxy of that name), then run its
      `onRegister` (which sees it stored). */
  function RegisterProxy(m: Model, p: Proxy): (r: (Model, seq<Event>))
    ensures r.0.proxyMap == m.proxyMap[p.name := p.(notifier := Notifier(Some(m.key)))]
    ensures r.0.key == m.key
    ensures r.1 == [Registered(p.id, true)]
  {
    var keyed := p.(notifier := InitializeNotifier(p.notifier, Some(m.key)));
    var stored := m.(proxyMap := m.proxyMap[GetProxyName(keyed) := keyed]);
    (stored, [Registered(p.id, GetProxyName(keyed) in stored.proxyMap)])
  }

  function RetrieveProxy(m: Model, name: string): Option<Proxy>
  {
    if name in m.proxyMap then Some(m.proxyMap[name]) else None
  }

  function HasProxy(m: Model, name: string): bool
  {
    name in m.proxyMap
  }

  /** `removeProxy`: an absent name returns null and changes nothing;
      otherwise the proxy leaves the map, then its `onRemove` runs (and no
      longer sees it stored), and it is returned. */
  function RemoveProxy(m: Model, name: string): (r: (Model, Option<Proxy>, seq<Event>))
    ensures name !in m.proxyMap ==> r == (m, None, [])
    ensures name in m.proxyMap ==>
      && r.0.proxyMap == m.proxyMap - {name}
      && r.1 == Some(m.proxyMap[name])
      && r.2 == [Removed(m.proxyMap[name].id, false)]
    ensures r.0.key == m.key
    ensures !HasProxy(r.0, name)
  {
    match RetrieveProxy(m, name)
    case None => (m, None, [])
    case Some(p) =>
      var removed := m.(proxyMap := m.proxyMap - {name});
      (removed, Some(p), [Removed(p.id, HasProxy(removed, name))])
  }

  /** After `registerProxy(p)` the proxy is found under its name, keyed. */
  lemma RegisterThenRetrieve(m: Model, p: Proxy)
    ensures var r := RegisterProxy(m, p).0;
            && HasProxy(r, p.name)
            && RetrieveProxy(r, p.name) == Some(p.(notifier := Notifier(Some(m.key))))
  {
  }

  /** Registering a second proxy under a taken name replaces the first. */
  lemma RegisterOverwrites(m: Model, p: Proxy, q: Proxy)
    requires q.name == p.name
    ensures var r := RegisterProxy(RegisterProxy(m, p).0, q).0;
            RetrieveProxy(r, p.name) == Some(q.(notifier := Notifier(Some(m.key))))
            && r.proxyMap.Keys == m.proxyMap.Keys + {p.name}
  {
  }

  /** Registering under a new name and removing that name restores the model
      and returns the proxy, keyed. */
  lemma RegisterRemoveRoundTrip(m: Model, p: Proxy)
    requires !HasProxy(m, p.name)
    ensures RemoveProxy(RegisterProxy(m, p).0, p.name)
         == (m, Some(p.(notifier := Notifier(Some(m.key)))), [Removed(p.id, false)])
  {
    assert m.proxyMap[p.name := p.(notifier := Notifier(Some(m.key)))] - {p.name} == m.proxyMap;
  }

  /** Neither registration nor removal touches proxies under other names. */
  lemma OtherNamesUntouched(m: Model, p: Proxy, name: string, other: string)
    requires other != p.name && other != name
    ensures RetrieveProxy(RegisterProxy(m, p).0, other) == RetrieveProxy(m, other)
    ensures RetrieveProxy(RemoveProxy(m, name).0, other) == RetrieveProxy(m, other)
  {
  }
}

=== FILE: multiton.dfy ===
/** The keyed-singleton table discipline shared by the static `getInstance`
    factories: a table from multiton key to instance. */
module Multiton {

  /** `getInstance(key, factory)`: call the factory only when the key is
      absent, store its result, and always answer the stored instance. */
  function GetInstance<T>(table: map<string, T>, key: string, factory: string -> T): (r: (map<string, T>, T))
    ensures key in r.0 && r.1 == r.0[key]
    ensures key in table ==> r == (table, table[key])
    ensures key !in table ==> r.0 == table[key := factory(key)] && r.1 == factory(key)
    ensures r.0.Keys == table.Keys + {key}
  {
    if key in table then (table, table[key])
    else
      var t := table[key := factory(key)];
      (t, t[key])
  }

  /** `removeX(key)`: drop the key; no hook runs on the instance. */
  function Remove<T>(table: map<string, T>, key: string): (r: map<string, T>)
    ensures r.Keys == table.Keys - {key}
    ensures forall k :: k in r ==> r[k] == table[k]
  {
    table - {key}
  }

  /** Once a key is present, which factory is passed makes no difference:
      the second factory is never invoked. */
  lemma GetInstanceIgnoresFactory<T>(table: map<string, T>, key: string, f: string -> T, g: string -> T)
    ensures var first := GetInstance(table, key, f);
            GetInstance(first.0, key, g) == first
  {
  }
}

=== FILE: notification.dfy ===
/** The notification value: a name, an optional body and an optional type. */
module Notifications {
  import opened Wrappers
  import opened Identity

  /** A notification body is an arbitrary Java object: its identity, and the
      text its own `toString` produces. */
  datatype Body = Body(ref: ObjId, text: string)

  datatype Notification = Notification(name: string, body: Option<Body>, noteType: Option<string>)

  /** The three-argument constructor. */
  function NewNotification(name: string, body: Option<Body>, noteType: Option<string>): (n: Notification)
    ensures n.name == name && n.body == body && n.noteType == noteType
  {
    Notification(name, body, noteType)
  }

  /** The two-argument constructor: the type is null. */
  function NewNotificationWithBody(name: string, body: Option<Body>): (n: Notification)
    ensures n.name == name && n.body == body && n.noteType.None?
  {
    NewNotification(name, body, None)
  }

  /** The one-argument constructor: body and type are null. */
  function NewNamedNotification(name: string): (n: Notification)
    ensures n.name == name && n.body.None? && n.noteType.None?
  {
    NewNotification(name, None, None)
  }

  /** `setBody` replaces the body and nothing else; there is no name setter. */
  function SetBody(n: Notification, body: Option<Body>): (r: Notification)
    ensures r.body == body
    ensures r.name == n.name && r.noteType == n.noteType
  {
    n.(body := body)
  }

  /** `setType` replaces the type and nothing else. */
  function SetType(n: Notification, noteType: Option<string>): (r: Notification)
    ensures r.noteType == noteType
    ensures r.name == n.name && r.body == n.body
  {
    n.(noteType := noteType)
  }

  const NamePrefix := "Notification Name: "
  const BodyLabel := "\nBody:"
  const TypeLabel := "\nType:"

  /** How a possibly-null field is rendered: `null` prints as "null". */
  function Render(s: Option<string>): string
  {
    match s
    case Some(t) => t
    case None => "null"
  }

  function BodyText(b: Option<Body>): Option<string>
  {
    match b
    case Some(x) => Some(x.text)
    case None => None
  }

  /** `toString`: the name after a fixed prefix, then the body, then the type. */
  function ToString(n: Notification): (r: string)
    ensures |r| == |NamePrefix| + |n.name| + |BodyLabel| + |Render(BodyText(n.body))| + |TypeLabel| + |Render(n.noteType)|
    ensures r[..|NamePrefix|] == NamePrefix
    ensures r[|NamePrefix|..|NamePrefix| + |n.name|] == n.name
    ensures var b := |NamePrefix| + |n.name|;
            var body := Render(BodyText(n.body));
            && r[b..b + |BodyLabel|] == BodyLabel
            && r[b + |BodyLabel|..b + |BodyLabel| + |body|] == body
            && r[b + |BodyLabel| + |body|..b + |BodyLabel| + |body| + |TypeLabel|] == TypeLabel
            && r[b + |BodyLabel| + |body| + |TypeLabel|..] == Render(n.noteType)
    ensures n.noteType.None? ==> r[|r| - 10..] == "\nType:null"
    ensures n.noteType.Some? ==> r[|r| - |n.noteType.value|..] == n.noteType.value
  {
    NamePrefix + n.name + BodyLabel + Render(BodyText(n.body)) + TypeLabel + Render(n.noteType)
  }

  /** The rendering cannot tell a null type from the type "null", nor a null
      body from a body whose text is "null". */
  lemma ToStringConflatesNull(name: string, ref: ObjId)
    ensures ToString(Notification(name, None, None))
         == ToString(Notification(name, Some(Body(ref, "null")), Some("null")))
  {
  }
}

=== FILE: notifier.dfy ===
/** The state every Notifier subclass (mediators, proxies, commands) carries:
    its multiton key, unset until `initializeNotifier` is called. */
module Notifiers {
  import opened Wrappers

  datatype Notifier = Notifier(key: Option<string>)

  /** A freshly constructed notifier has no key. */
  const Unkeyed := Notifier(None)

  /** `initializeNotifier(key)` stores `key` and nothing else. */
  function InitializeNotifier(n: Notifier, key: Option<string>): (r: Notifier)
    ensures r.key == key
  {
    n.(key := key)
  }
}

=== FILE: notifier_calls.dfy ===
/** The Notifier operations that reach the Facade: `getFacade` and the
    three `sendNotification` overloads every Mediator, Proxy and command
    inherits. */
module NotifierCalls {
  import opened Wrappers
  import opened Identity
  import opened Notifications
  import opened Events
  import opened Notifiers
  import Views
  import opened Facades

  /** `getFacade`: throws until the Notifier has a key; otherwise the
      Facade for that key, constructed on first use. */
  function GetFacade(w: World, n: Notifier): (r: Result<(World, Facade), Fault>)
    ensures n.key.None? ==> r == Failure(NotifierUninitialized)
    ensures n.key.Some? ==>
      (r.Success? && n.key.value in r.value.0.facades && r.value.1 == r.value.0.facades[n.key.value])
    ensures n.key.Some? && n.key.value in w.facades ==> r == Success((w, w.facades[n.key.value]))
  {
    match n.key
    case None => Failure(NotifierUninitialized)
    case Some(key) =>
      var g := FacadeGetInstance(w, key);
      Success((g.0, g.0.facades[key]))
  }

  /** The Facade a keyed Notifier reaches is the one for its key, in a world
      whose tables still agree. */
  lemma GetFacadeKeepsConsistent(w: World, n: Notifier)
    requires Consistent(w) && n.key.Some?
    ensures var r := GetFacade(w, n);
            r.Success? && Consistent(r.value.0) && r.value.1.key == n.key.value
  {
    GetInstanceKeepsConsistent(w, n.key.value);
  }

  /** Sending through the Facade a key reaches: the world stays consistent,
      and the key's View, when there already was one, delivers the
      notification; a key without a View gets a new one that notifies nobody. */
  lemma SendThroughFacade(w: World, key: string, note: Notification)
    requires Consistent(w)
    ensures var g := FacadeGetInstance(w, key).0;
            && key in g.views
            && Consistent(Facades.SendNotification(g, key, note.name, note.body, note.noteType).0)
            && DeliveriesIn(Facades.SendNotification(g, key, note.name, note.body, note.noteType).1)
               == (if key in w.views then Views.NotifyObservers(w.views[key], note) else [])
  {
    GetInstanceKeepsConsistent(w, key);
    var g := FacadeGetInstance(w, key).0;
    if key !in w.facades {
      assert g == InstallFacade(w, key).0;
      if key !in w.views {
        assert g.views[key] == Views.NewView(key);
        assert Views.ObserversOf(g.views[key], note.name) == [];
      }
    }
    var r := Facades.SendNotification(g, key, note.name, note.body, note.noteType);
    assert Notification(note.name, note.body, note.noteType) == note;
    assert r.0 == g.(nextId := r.0.nextId);
  }

  /** `sendNotification(name, body, type)` through the Notifier's Facade. */
  function SendNotification(w: World, n: Notifier, name: string, body: Option<Body>, noteType: Option<string>)
    : (r: Result<(World, seq<Event>), Fault>)
    requires Consistent(w)
    ensures n.key.None? ==> r == Failure(NotifierUninitialized)
    ensures n.key.Some? ==> r.Success? && Consistent(r.value.0)
    ensures n.key.Some? ==>
      DeliveriesIn(r.value.1)
      == (if n.key.value in w.views
          then Views.NotifyObservers(w.views[n.key.value], Notification(name, body, noteType))
          else [])
  {
    match n.key
    case None => Failure(NotifierUninitialized)
    case Some(key) =>
      var g := FacadeGetInstance(w, key).0;
      SendThroughFacade(w, key, Notification(name, body, noteType));
      Success(Facades.SendNotification(g, key, name, body, noteType))
  }

  /** `sendNotification(name, body)`: the type is null. */
  function SendNotificationWithBody(w: World, n: Notifier, name: string, body: Option<Body>)
    : (r: Result<(World, seq<Event>), Fault>)
    requires Consistent(w)
    ensures r == SendNotification(w, n, name, body, None)
  {
    match n.key
    case None => Failure(NotifierUninitialized)
    case Some(key) =>
      var f := GetFacade(w, n).value;
      GetFacadeKeepsConsistent(w, n);
      Success(Facades.SendNotificationWithBody(f.0, key, name, body))
  }

  /** `sendNotification(name)`: body and type are null. */
  function SendNamedNotification(w: World, n: Notifier, name: string)
    : (r: Result<(World, seq<Event>), Fault>)
    requires Consistent(w)
    ensures r == SendNotification(w, n, name, None, None)
  {
    match n.key
    case None => Failure(NotifierUninitialized)
    case Some(key) =>
      var f := GetFacade(w, n).value;
      GetFacadeKeepsConsistent(w, n);
      Success(Facades.SendNamedNotification(f.0, key, name))
  }

  /** A Notifier that was never initialized fails the same way on every
      overload, and leaves no trace. */
  lemma UninitializedNotifierFails(w: World, name: string, body: Option<Body>, noteType: Option<string>)
    requires Consistent(w)
    ensures SendNotification(w, Unkeyed, name, body, noteType) == Failure(NotifierUninitialized)
    ensures SendNotificationWithBody(w, Unkeyed, name, body) == Failure(NotifierUninitialized)
    ensures SendNamedNotification(w, Unkeyed, name) == Failure(NotifierUninitialized)
  {
  }

  /** After `initializeNotifier(key)` the Notifier reaches the core of that
      key, and its sends are seen by exactly that core's observers. */
  lemma InitializedNotifierReachesCore(w: World, n: Notifier, key: string, name: string)
    requires Consistent(w) && key in w.facades
    ensures var r := SendNamedNotification(w, InitializeNotifier(n, Some(key)), name);
            && r.Success?
            && DeliveriesIn(r.value.1) == Views.NotifyObservers(w.views[key], NewNamedNotification(name))
  {
  }
}

=== FILE: observer.dfy ===
/** Observer: a callback paired with a context object that serves only as an
    identity token for removal. */
module Observers {
  import opened Identity
  import opened Notifications
  import opened Events

  datatype Observer = Observer(notify: Callback, context: ObjId)

  /** The constructor stores the method and the context it is given. */
  function NewObserver(notify: Callback, context: ObjId): (o: Observer)
    ensures o.notify == notify && o.context == context
  {
    Observer(notify, context)
  }

  /** Reference comparison of `obj` with the stored context. */
  function CompareNotifyContext(o: Observer, obj: ObjId): (same: bool)
    ensures same <==> obj == o.context
  {
    obj == o.context
  }

  /** `notifyObserver` invokes the stored method once, with `n`. */
  function NotifyObserver(o: Observer, n: Notification): (e: Event)
    ensures e.Notified? && e.callback == o.notify && e.note == n
  {
    Notified(o.notify, n)
  }

  function SetNotifyContext(o: Observer, context: ObjId): (r: Observer)
    ensures r.context == context && r.notify == o.notify
  {
    o.(context := context)
  }

  function SetNotifyMethod(o: Observer, notify: Callback): (r: Observer)
    ensures r.notify == notify && r.context == o.context
  {
    o.(notify := notify)
  }

  /** After `setNotifyContext(c)` comparisons match `c` and nothing else. */
  lemma SetContextGovernsComparison(o: Observer, c: ObjId, x: ObjId)
    ensures CompareNotifyContext(SetNotifyContext(o, c), x) <==> x == c
  {
  }

  /** Replacing the callback never changes what the observer compares equal to. */
  lemma SetMethodKeepsComparison(o: Observer, f: Callback, x: ObjId)
    ensures CompareNotifyContext(SetNotifyMethod(o, f), x) == CompareNotifyContext(o, x)
  {
  }

  /** How many observers in `obs` have context `ctx`. */
  function ContextCount(obs: seq<Observer>, ctx: ObjId): nat
  {
    if obs == [] then 0
    else (if CompareNotifyContext(obs[0], ctx) then 1 else 0) + ContextCount(obs[1..], ctx)
  }

  /** `k` copies of one observer. */
  function Copies(o: Observer, k: nat): (r: seq<Observer>)
    ensures |r| == k
    ensures forall i :: 0 <= i < k ==> r[i] == o
  {
    if k == 0 then [] else [o] + Copies(o, k - 1)
  }

  lemma ContextCountCons(o: Observer, s: seq<Observer>)
    ensures forall c :: ContextCount([o] + s, c) == (if CompareNotifyContext(o, c) then 1 else 0) + ContextCount(s, c)
  {
    assert ([o] + s)[1..] == s;
  }

  /** The index the source's removal loop stops at: the first observer whose
      context is `ctx`, or `|obs|` when there is none. */
  function FirstContextIndex(obs: seq<Observer>, ctx: ObjId): (i: nat)
    ensures i <= |obs|
    ensures forall j :: 0 <= j < i ==> !CompareNotifyContext(obs[j], ctx)
    ensures i < |obs| ==> CompareNotifyContext(obs[i], ctx)
    ensures i == |obs| <==> ContextCount(obs, ctx) == 0
  {
    if obs == [] then 0
    else if CompareNotifyContext(obs[0], ctx) then 0
    else 1 + FirstContextIndex(obs[1..], ctx)
  }

  /** The observer list after the source's removal loop: the first observer
      with context `ctx` is gone, everything else is kept in order. */
  function RemoveFirstWithContext(obs: seq<Observer>, ctx: ObjId): (r: seq<Observer>)
    ensures |r| == if ContextCount(obs, ctx) > 0 then |obs| - 1 else |obs|
    ensures ContextCount(r, ctx) == if ContextCount(obs, ctx) > 0 then ContextCount(obs, ctx) - 1 else 0
    ensures forall c :: c != ctx ==> ContextCount(r, c) == ContextCount(obs, c)
  {
    if obs == [] then []
    else if CompareNotifyContext(obs[0], ctx) then obs[1..]
    else
      var rest := RemoveFirstWithContext(obs[1..], ctx);
      ContextCountCons(obs[0], rest);
      ContextCountCons(obs[0], obs[1..]);
      assert [obs[0]] + obs[1..] == obs;
      [obs[0]] + rest
  }

  /** The observers of a list whose context is not `ctx`, in their order. */
  function WithoutContext(obs: seq<Observer>, ctx: ObjId): (r: seq<Observer>)
    ensures |r| + ContextCount(obs, ctx) == |obs|
    ensures forall i :: 0 <= i < |r| ==> !CompareNotifyContext(r[i], ctx)
  {
    if obs == [] then []
    else if CompareNotifyContext(obs[0], ctx) then WithoutContext(obs[1..], ctx)
    else [obs[0]] + WithoutContext(obs[1..], ctx)
  }

  /** Removing the first observer with `ctx` keeps every other observer, in
      order, with its callback. */
  lemma {:induction false} RemoveFirstKeepsOthers(obs: seq<Observer>, ctx: ObjId)
    ensures WithoutContext(RemoveFirstWithContext(obs, ctx), ctx) == WithoutContext(obs, ctx)
  {
    if obs != [] && !CompareNotifyContext(obs[0], ctx) {
      var rest := RemoveFirstWithContext(obs[1..], ctx);
      RemoveFirstKeepsOthers(obs[1..], ctx);
      assert RemoveFirstWithContext(obs, ctx) == [obs[0]] + rest;
      assert ([obs[0]] + rest)[1..] == rest;
    }
  }

  /** `k` removals of the first observer with `ctx`, one after another. */
  function RemoveFirstN(obs: seq<Observer>, ctx: ObjId, k: nat): (r: seq<Observer>)
    decreases k
    ensures WithoutContext(r, ctx) == WithoutContext(obs, ctx)
    ensures |r| <= |obs|
  {
    if k == 0 then obs
    else
      RemoveFirstKeepsOthers(obs, ctx);
      RemoveFirstN(RemoveFirstWithContext(obs, ctx), ctx, k - 1)
  }

  /** Removing index `j + 1` of a list is removing index `j` of its tail. */
  lemma RemoveAtCons(s: seq<Observer>, j: nat)
    requires j + 1 < |s|
    ensures s[..j + 1] + s[j + 2..] == [s[0]] + (s[1..][..j] + s[1..][j + 1..])
  {
    assert s[..j + 1] == [s[0]] + s[1..][..j];
    assert s[j + 2..] == s[1..][j + 1..];
  }

  /** The source's loop as written: find the first index whose context
      matches and remove the element there, or leave the list alone. */
  lemma {:induction false} RemoveFirstIsRemoveAt(obs: seq<Observer>, ctx: ObjId)
    ensures var i := FirstContextIndex(obs, ctx);
            RemoveFirstWithContext(obs, ctx) == if i < |obs| then obs[..i] + obs[i + 1..] else obs
  {
    if obs != [] && !CompareNotifyContext(obs[0], ctx) {
      var t := obs[1..];
      RemoveFirstIsRemoveAt(t, ctx);
      var j := FirstContextIndex(t, ctx);
      assert FirstContextIndex(obs, ctx) == j + 1;
      assert RemoveFirstWithContext(obs, ctx) == [obs[0]] + RemoveFirstWithContext(t, ctx);
      if j < |t| {
        RemoveAtCons(obs, j);
      } else {
        assert [obs[0]] + t == obs;
      }
    } else if obs != [] {
      assert obs[..0] + obs[1..] == obs[1..];
    }
  }

  lemma {:induction false} ContextCountAppend(a: seq<Observer>, b: seq<Observer>, ctx: ObjId)
    ensures ContextCount(a + b, ctx) == ContextCount(a, ctx) + ContextCount(b, ctx)
  {
    if a == [] {
      assert a + b == b;
    } else {
      assert (a + b)[1..] == a[1..] + b;
      ContextCountAppend(a[1..], b, ctx);
    }
  }

  lemma {:induction false} ContextCountCopies(o: Observer, k: nat, ctx: ObjId)
    ensures ContextCount(Copies(o, k), ctx) == if o.context == ctx then k else 0
  {
    if k > 0 {
      assert Copies(o, k)[1..] == Copies(o, k - 1);
      ContextCountCopies(o, k - 1, ctx);
    }
  }

  /** Removing by `o.context` from a list that ends in copies of `o`, when no
      earlier observer shares that context, takes off exactly one copy. */
  lemma {:induction false} RemoveFirstFromCopies(base: seq<Observer>, o: Observer, k: nat)
    requires ContextCount(base, o.context) == 0
    requires k > 0
    ensures RemoveFirstWithContext(base + Copies(o, k), o.context) == base + Copies(o, k - 1)
  {
    var s := base + Copies(o, k);
    if base == [] {
      assert s == Copies(o, k);
      assert CompareNotifyContext(s[0], o.context);
      assert s[1..] == Copies(o, k - 1);
    } else {
      assert s[0] == base[0];
      assert !CompareNotifyContext(base[0], o.context) && ContextCount(base[1..], o.context) == 0;
      assert s[1..] == base[1..] + Copies(o, k);
      RemoveFirstFromCopies(base[1..], o, k);
      assert RemoveFirstWithContext(s, o.context) == [s[0]] + RemoveFirstWithContext(s[1..], o.context);
      assert [base[0]] + (base[1..] + Copies(o, k - 1)) == base + Copies(o, k - 1);
    }
  }
}

=== FILE: proxy.dfy ===
/** The Proxy base class: a named holder of one data object. */
module Proxies {
  import opened Wrappers
  import opened Identity
  import opened Notifiers

  /** The name used when a proxy is constructed with a null name. */
  const NAME := "Proxy"

  datatype Proxy = Proxy(id: ObjId, name: string, data: Option<ObjId>, notifier: Notifier)

  function GetProxyName(p: Proxy): string
  {
    p.name
  }

  function GetData(p: Proxy): Option<ObjId>
  {
    p.data
  }

  function SetData(p: Proxy, data: Option<ObjId>): (r: Proxy)
    ensures r.id == p.id && r.name == p.name && r.notifier == p.notifier
  {
    p.(data := data)
  }

  /** `new Proxy(name, data)`: `setData` runs only for non-null data, so null
      data leaves the field at its initial null. */
  function NewProxy(id: ObjId, name: Option<string>, data: Option<ObjId>): (p: Proxy)
    ensures name.None? ==> p.name == NAME
    ensures name.Some? ==> p.name == name.value
    ensures data.None? ==> p.data.None?
    ensures data.Some? ==> p.data == data
    ensures p.id == id && p.notifier.key.None?
  {
    var p := Proxy(id, name.GetOr(NAME), None, Unkeyed);
    if data.Some? then SetData(p, data) else p
  }

  /** `new Proxy(name)`. */
  function NewNamedProxy(id: ObjId, name: Option<string>): (p: Proxy)
    ensures p.data.None?
    ensures p.name == name.GetOr(NAME)
  {
    NewProxy(id, name, None)
  }

  /** `new Proxy()`. */
  function NewDefaultProxy(id: ObjId): (p: Proxy)
    ensures p.name == NAME && p.data.None?
  {
    NewProxy(id, None, None)
  }

  /** A non-null constructor name is what `getProxyName` reports. */
  lemma NameIsKept(id: ObjId, name: string, data: Option<ObjId>)
    ensures GetProxyName(NewProxy(id, Some(name), data)) == name
  {
  }

  /** `getData` returns what `setData` stored last. */
  lemma DataRoundTrip(p: Proxy, d: Option<ObjId>, e: Option<ObjId>)
    ensures GetData(SetData(p, d)) == d
    ensures SetData(SetData(p, d), e) == SetData(p, e)
  {
  }
}

=== FILE: scenarios.dfy ===
/** Whole-core scenarios proved on concrete inputs. */
module Scenarios {
  import opened Wrappers
  import opened Identity
  import opened Notifications
  import opened Events
  import opened Observers
  import opened Views
  import opened Commands
  import opened Facades
  import Controllers

  /** The world after `getInstance(key)` on an empty world and one
      `registerCommand(name, s)`: the Controller ObjId(0) maps `name` to `s`,
      its observer is the only one for `name`, and the next identity is 1. */
  lemma FreshCoreWithCommand(key: string, name: string, s: Supplier)
    ensures var w := RegisterCommand(FacadeGetInstance(EmptyWorld, key).0, key, name, s);
            var c := Controllers.NewController(ObjId(0), key).(commandMap := map[name := s]);
            && key in w.views && key in w.controllers
            && w.controllers[key] == c && w.nextId == 1
            && ObserversOf(w.views[key], name) == [Controllers.ControllerObserver(c)]
  {
    var g := FacadeGetInstance(EmptyWorld, key);
    assert g == InstallFacade(EmptyWorld, key);
    var c := Controllers.NewController(ObjId(0), key);
    assert g.0.controllers[key] == c && g.0.views[key] == NewView(key) && g.0.nextId == 1;
    var w := RegisterCommand(g.0, key, name, s);
    assert w.controllers[key] == c.(commandMap := map[name := s]);
  }

  /** On a new core with one command mapped to `name`, sending `name`
      notifies the Controller (the first object created), which builds the
      command (the second), keys it with the core's key and executes it. */
  lemma CommandOnFreshCore(key: string, name: string, s: Supplier, body: Option<Body>)
    requires !s.kind.MacroKind? || s.kind.subCommands == []
    ensures var g := FacadeGetInstance(EmptyWorld, key);
            var w := RegisterCommand(g.0, key, name, s);
            var note := Notification(name, body, None);
            && SendNotification(w, key, name, body, None).1
               == [Notified(ExecuteCommand(ObjId(0)), note),
                   Supplied(s.id, ObjId(1)), KeyAssigned(ObjId(1), Some(key)), Executed(ObjId(1), note)]
  {
    FreshCoreWithCommand(key, name, s);
    var w := RegisterCommand(FacadeGetInstance(EmptyWorld, key).0, key, name, s);
    var c := w.controllers[key];
    var o := Controllers.ControllerObserver(c);
    var note := Notification(name, body, None);
    var d := NotifyObserver(o, note);
    assert Views.NotifyObservers(w.views[key], note) == [d];
    ExpandOne(w, key, d, 1);
    var run := Run(s.kind, ObjId(1), Some(key), note, 2);
    assert run.0 == [Executed(ObjId(1), note)];
    assert Perform(w, key, d, 1).0 == [Supplied(s.id, ObjId(1)), KeyAssigned(ObjId(1), Some(key))] + run.0;
  }

  /** `Main`: build the core "Example", map "Macro" to an empty MacroCommand
      and send "Macro". The Controller is the first object the framework
      creates; the MacroCommand the second, keyed "Example" and executed
      once, running no sub-command. */
  lemma MainFlow()
    ensures var g := FacadeGetInstance(EmptyWorld, "Example");
            var w := RegisterCommand(g.0, "Example", "Macro", Supplier(0, MacroKind([])));
            var note := Notification("Macro", None, None);
            && g.1 == [FacadeActor, ModelActor, ControllerActor, ViewActor]
            && SendNamedNotification(w, "Example", "Macro").1
               == [Notified(ExecuteCommand(ObjId(0)), note),
                   Supplied(0, ObjId(1)), KeyAssigned(ObjId(1), Some("Example")), Executed(ObjId(1), note)]
  {
    CommandOnFreshCore("Example", "Macro", Supplier(0, MacroKind([])), None);
  }

  /** The "LOAD" example: one command is created, keyed "core-1", and
      executed once with the notification ("LOAD", the body, null). */
  lemma LoadScenario(body: Body)
    ensures var g := FacadeGetInstance(EmptyWorld, "core-1");
            var w := RegisterCommand(g.0, "core-1", "LOAD", Supplier(5, CustomKind(0)));
            var note := Notification("LOAD", Some(body), None);
            SendNotificationWithBody(w, "core-1", "LOAD", Some(body)).1
            == [Notified(ExecuteCommand(ObjId(0)), note),
                Supplied(5, ObjId(1)), KeyAssigned(ObjId(1), Some("core-1")), Executed(ObjId(1), note)]
  {
    CommandOnFreshCore("core-1", "LOAD", Supplier(5, CustomKind(0)), Some(body));
  }

  /** Observers registered for one name in the order H1, H2, H3 are
      notified in that order. */
  lemma RegistrationOrder(v: View, h1: Observer, h2: Observer, h3: Observer)
    requires "E" !in v.observerMap
    ensures var w := RegisterObserver(RegisterObserver(RegisterObserver(v, "E", h1), "E", h2), "E", h3);
            var note := NewNamedNotification("E");
            Views.NotifyObservers(w, note)
            == [NotifyObserver(h1, note), NotifyObserver(h2, note), NotifyObserver(h3, note)]
  {
  }

  /** An observer that removes itself while being notified: the others in
      the same dispatch are still notified, and the next dispatch leaves it out. */
  lemma UnsubscribeDuringDispatch(v: View)
    requires "E" !in v.observerMap
    ensures var h1 := NewObserver(UserCallback(1), ObjId(1));
            var h2 := NewObserver(UserCallback(2), ObjId(2));
            var w := RegisterObserver(RegisterObserver(v, "E", h1), "E", h2);
            var note := NewNamedNotification("E");
            var react := (u: View, o: Observer) =>
              if "E" in u.observerMap && o.context == ObjId(1) then RemoveObserver(u, "E", ObjId(1)) else u;
            var first := NotifyObserversReacting(w, note, react);
            && first.0 == [Notified(UserCallback(1), note), Notified(UserCallback(2), note)]
            && Views.NotifyObservers(first.1, note) == [Notified(UserCallback(2), note)]
  {
    var h1 := NewObserver(UserCallback(1), ObjId(1));
    var h2 := NewObserver(UserCallback(2), ObjId(2));
    var w := RegisterObserver(RegisterObserver(v, "E", h1), "E", h2);
    var note := NewNamedNotification("E");
    var react := (u: View, o: Observer) =>
      if "E" in u.observerMap && o.context == ObjId(1) then RemoveObserver(u, "E", ObjId(1)) else u;
    assert ObserversOf(w, "E") == [h1, h2];
    var v1 := RemoveObserver(w, "E", ObjId(1));
    assert react(w, h1) == v1;
    assert RemoveFirstWithContext([h1, h2], ObjId(1)) == [h2];
    assert ObserversOf(v1, "E") == [h2];
    assert react(v1, h2) == v1;
    assert [h1, h2][1..] == [h2] && [h2][1..] == [];
    var tail := Dispatch(v1, [h2], note, react);
    assert tail.1 == v1;
    assert Dispatch(w, [h1, h2], note, react).1 == v1;
  }

  /** Two observers with the same context under "N": one removal takes the
      first and leaves the second in place. */
  lemma RemoveTakesEarliest(key: string, a: Observer, b: Observer)
    requires a.context == b.context
    ensures var v := View(key, map["N" := [a, b]], map[]);
            RemoveObservers(v, ["N"], a.context) == Success(View(key, map["N" := [b]], map[]))
  {
    var v := View(key, map["N" := [a, b]], map[]);
    assert [a, b][1..] == [b];
    assert RemoveFirstWithContext([a, b], a.context) == [b];
    var v1 := RemoveObserver(v, "N", a.context);
    assert v1 == View(key, map["N" := [b]], map[]);
    assert ["N"][0] == "N" && ["N"][1..] == [];
    assert RemoveObservers(v1, [], a.context) == Success(v1);
  }
}

=== FILE: view.dfy ===
/** The View of one core: observer lists per notification name, and the
    registered mediators. */
module Views {
  import opened Wrappers
  import opened Identity
  import opened Notifications
  import opened Events
  import opened Observers
  import opened Notifiers
  import opened Mediators

  datatype View = View(
    key: string,
    observerMap: map<string, seq<Observer>>,
    mediatorMap: map<string, Mediator>)

  /** The object built by `new View(key)`: both maps empty. Installing it in
      the multiton table is modelled with the other tables, in `Facades`. */
  function NewView(key: string): (v: View)
    ensures v.key == key && v.observerMap == map[] && v.mediatorMap == map[]
    ensures NoEmptyLists(v)
  {
    View(key, map[], map[])
  }

  /** The observers registered for `name`, in registration order. */
  function ObserversOf(v: View, name: string): seq<Observer>
  {
    if name in v.observerMap then v.observerMap[name] else []
  }

  /** No notification name is mapped to an empty list. */
  ghost predicate NoEmptyLists(v: View)
  {
    forall name :: name in v.observerMap ==> v.observerMap[name] != []
  }

  /** Under the no-empty-list invariant an observer map is determined by the
      lists `ObserversOf` reports. */
  lemma SameListsSameMap(a: View, b: View)
    requires NoEmptyLists(a) && NoEmptyLists(b)
    requires forall name :: ObserversOf(a, name) == ObserversOf(b, name)
    ensures a.observerMap == b.observerMap
  {
    forall name | name in a.observerMap
      ensures name in b.observerMap && a.observerMap[name] == b.observerMap[name]
    {
      assert ObserversOf(a, name) == ObserversOf(b, name);
    }
    forall name | name in b.observerMap
      ensures name in a.observerMap
    {
      assert ObserversOf(a, name) == ObserversOf(b, name);
    }
  }

  /** `registerObserver`: append to the list for `name`, creating it if absent. */
  function RegisterObserver(v: View, name: string, o: Observer): (r: View)
    ensures ObserversOf(r, name) == ObserversOf(v, name) + [o]
    ensures forall n :: n != name ==> ObserversOf(r, n) == ObserversOf(v, n)
    ensures r.observerMap.Keys == v.observerMap.Keys + {name}
    ensures r.key == v.key && r.mediatorMap == v.mediatorMap
    ensures NoEmptyLists(v) ==> NoEmptyLists(r)
  {
    if name in v.observerMap then
      v.(observerMap := v.observerMap[name := v.observerMap[name] + [o]])
    else
      v.(observerMap := v.observerMap[name := [o]])
  }

  /** One `notifyObserver` call per observer of `obs`, in order. */
  function Deliver(obs: seq<Observer>, note: Notification): (r: seq<Event>)
    ensures |r| == |obs|
    ensures forall i :: 0 <= i < |obs| ==> r[i] == NotifyObserver(obs[i], note)
  {
    seq(|obs|, i requires 0 <= i < |obs| => NotifyObserver(obs[i], note))
  }

  /** `notifyObservers`: the callbacks of the observers registered for the
      notification's name, each once, in registration order; nothing when the
      name has no list. */
  function NotifyObservers(v: View, note: Notification): (r: seq<Event>)
    ensures |r| == |ObserversOf(v, note.name)|
    ensures forall i :: 0 <= i < |r| ==> r[i] == Notified(ObserversOf(v, note.name)[i].notify, note)
    ensures note.name !in v.observerMap ==> r == []
  {
    if note.name in v.observerMap then Deliver(v.observerMap[note.name], note) else []
  }

  /** Registration order is delivery order: an observer registered last is
      notified last, after all earlier ones. */
  lemma NotifyAfterRegister(v: View, o: Observer, note: Notification)
    ensures NotifyObservers(RegisterObserver(v, note.name, o), note)
         == NotifyObservers(v, note) + [NotifyObserver(o, note)]
  {
    var a := NotifyObservers(RegisterObserver(v, note.name, o), note);
    var b := NotifyObservers(v, note) + [NotifyObserver(o, note)];
    assert |a| == |b|;
    forall i | 0 <= i < |a| ensures a[i] == b[i] {
    }
  }

  /** Registering under another name does not change who hears `note`. */
  lemma NotifyIgnoresOtherNames(v: View, name: string, o: Observer, note: Notification)
    requires name != note.name
    ensures NotifyObservers(RegisterObserver(v, name, o), note) == NotifyObservers(v, note)
  {
  }

  lemma DeliverFirst(obs: seq<Observer>, note: Notification)
    requires obs != []
    ensures Deliver(obs, note) == [NotifyObserver(obs[0], note)] + Deliver(obs[1..], note)
  {
    var a := Deliver(obs, note);
    var b := [NotifyObserver(obs[0], note)] + Deliver(obs[1..], note);
    assert |a| == |b|;
    forall i | 0 <= i < |a| ensures a[i] == b[i] {
      if i > 0 {
        assert b[i] == Deliver(obs[1..], note)[i - 1];
      }
    }
  }

  /** Dispatch over a snapshot `snapshot` while each callback may change the
      view: `react(w, o)` is the view after `o`'s callback ran on view `w`. */
  function Dispatch(v: View, snapshot: seq<Observer>, note: Notification, react: (View, Observer) -> View): (r: (seq<Event>, View))
    decreases |snapshot|
    ensures r.0 == Deliver(snapshot, note)
    ensures snapshot == [] ==> r.1 == v
  {
    if snapshot == [] then ([], v)
    else
      var rest := Dispatch(react(v, snapshot[0]), snapshot[1..], note, react);
      DeliverFirst(snapshot, note);
      ([NotifyObserver(snapshot[0], note)] + rest.0, rest.1)
  }

  /** Delivering one more observer of the snapshot adds its notification last. */
  lemma DeliverSnoc(obs: seq<Observer>, i: nat, note: Notification)
    requires i < |obs|
    ensures Deliver(obs[..i + 1], note) == Deliver(obs[..i], note) + [NotifyObserver(obs[i], note)]
  {
    var a := Deliver(obs[..i + 1], note);
    var b := Deliver(obs[..i], note) + [NotifyObserver(obs[i], note)];
    assert |a| == |b|;
    forall j | 0 <= j < |a| ensures a[j] == b[j] {
      assert obs[..i + 1][j] == obs[j];
      if j < i {
        assert obs[..i][j] == obs[j];
      }
    }
  }

  /** One step of a dispatch from position `i` of the snapshot: the view
      after it is the view after the rest, started from the first reaction. */
  lemma DispatchStep(w: View, snapshot: seq<Observer>, i: nat, note: Notification, react: (View, Observer) -> View)
    requires i < |snapshot|
    ensures Dispatch(w, snapshot[i..], note, react).1
         == Dispatch(react(w, snapshot[i]), snapshot[i + 1..], note, react).1
  {
    assert snapshot[i..][0] == snapshot[i];
    assert snapshot[i..][1..] == snapshot[i + 1..];
  }

  /** `notifyObservers` when callbacks re-enter the view. Who is notified is
      fixed by the list at the start of the call, whatever the callbacks
      register or remove; their changes are kept in the resulting view. */
  function NotifyObserversReacting(v: View, note: Notification, react: (View, Observer) -> View): (r: (seq<Event>, View))
    ensures r.0 == NotifyObservers(v, note)
    ensures note.name !in v.observerMap ==> r.1 == v
  {
    Dispatch(v, ObserversOf(v, note.name), note, react)
  }

  /** The same dispatch written as the source writes it: copy the list, then
      notify each observer of the copy in turn. */
  method NotifyObserversLoop(v: View, note: Notification, react: (View, Observer) -> View)
    returns (delivered: seq<Event>, w: View)
    ensures (delivered, w) == NotifyObserversReacting(v, note, react)
  {
    var snapshot := ObserversOf(v, note.name);
    delivered, w := [], v;
    var i := 0;
    assert snapshot[i..] == snapshot;
    while i < |snapshot|
      invariant 0 <= i <= |snapshot|
      invariant delivered == Deliver(snapshot[..i], note)
      invariant Dispatch(w, snapshot[i..], note, react).1 == Dispatch(v, snapshot, note, react).1
    {
      var o := snapshot[i];
      DispatchStep(w, snapshot, i, note, react);
      DeliverSnoc(snapshot, i, note);
      delivered := delivered + [NotifyObserver(o, note)];
      w := react(w, o);
      i := i + 1;
    }
    assert snapshot[..i] == snapshot;
    assert snapshot[i..] == [];
  }

  /** `removeObserver`: drop the first observer whose context is `ctx` and
      prune the name when its list becomes empty. The source reads the list
      without a null check, so the name must be present. */
  function RemoveObserver(v: View, name: string, ctx: ObjId): (r: View)
    requires name in v.observerMap
    ensures ObserversOf(r, name) == RemoveFirstWithContext(v.observerMap[name], ctx)
    ensures name in r.observerMap <==> RemoveFirstWithContext(v.observerMap[name], ctx) != []
    ensures forall n :: n != name ==> ObserversOf(r, n) == ObserversOf(v, n)
    ensures r.observerMap.Keys - {name} == v.observerMap.Keys - {name}
    ensures r.key == v.key && r.mediatorMap == v.mediatorMap
    ensures NoEmptyLists(v) ==> NoEmptyLists(r)
  {
    var rest := RemoveFirstWithContext(v.observerMap[name], ctx);
    if rest == [] then v.(observerMap := v.observerMap - {name})
    else v.(observerMap := v.observerMap[name := rest])
  }

  /** The one observer a mediator is registered with for all its interests. */
  function MediatorObserver(m: Mediator): (o: Observer)
    ensures o.notify == HandleNotification(m.id)
    ensures o.context == m.id
  {
    NewObserver(HandleNotification(m.id), m.id)
  }

  /** `k` more copies of `o` after one more `o` are `k + 1` copies. */
  lemma AppendCopies(s: seq<Observer>, o: Observer, k: nat)
    ensures (s + [o]) + Copies(o, k) == s + Copies(o, k + 1)
  {
    assert Copies(o, k + 1) == [o] + Copies(o, k);
  }

  /** One step of `RegisterObservers`: registering `h` and then the observers
      for `t` adds, per name, as many copies as `[h] + t` mentions it. */
  lemma RegisterObserversStep(v: View, names: seq<string>, o: Observer, r: View)
    requires names != []
    requires forall n :: ObserversOf(r, n) == ObserversOf(RegisterObserver(v, names[0], o), n) + Copies(o, multiset(names[1..])[n])
    ensures forall n :: ObserversOf(r, n) == ObserversOf(v, n) + Copies(o, multiset(names)[n])
  {
    var h, t := names[0], names[1..];
    var v1 := RegisterObserver(v, h, o);
    assert multiset(names) == multiset{h} + multiset(t) by {
      assert names == [h] + t;
    }
    forall n ensures ObserversOf(r, n) == ObserversOf(v, n) + Copies(o, multiset(names)[n]) {
      var k := multiset(t)[n];
      assert ObserversOf(r, n) == ObserversOf(v1, n) + Copies(o, k);
      if n == h {
        assert multiset(names)[n] == k + 1;
        assert ObserversOf(v1, n) == ObserversOf(v, n) + [o];
        AppendCopies(ObserversOf(v, n), o, k);
      } else {
        assert multiset(names)[n] == k;
        assert ObserversOf(v1, n) == ObserversOf(v, n);
      }
    }
  }

  /** `registerObserver(names[i], o)` for each `i`, in order. */
  function RegisterObservers(v: View, names: seq<string>, o: Observer): (r: View)
    decreases |names|
    ensures forall n :: ObserversOf(r, n) == ObserversOf(v, n) + Copies(o, multiset(names)[n])
    ensures r.key == v.key && r.mediatorMap == v.mediatorMap
    ensures NoEmptyLists(v) ==> NoEmptyLists(r)
  {
    if names == [] then v
    else
      var r := RegisterObservers(RegisterObserver(v, names[0], o), names[1..], o);
      RegisterObserversStep(v, names, o, r);
      r
  }

  /** `registerMediator`. A name already registered is ignored. Otherwise the
      mediator gets the view's key, is stored, is registered with one shared
      observer for each interest, and finally its `onRegister` runs (it sees
      itself registered). */
  function RegisterMediator(v: View, m: Mediator): (r: (View, seq<Event>))
    ensures m.name in v.mediatorMap ==> r == (v, [])
    ensures m.name !in v.mediatorMap ==>
      && r.0.mediatorMap == v.mediatorMap[m.name := m.(notifier := InitializeNotifier(m.notifier, Some(v.key)))]
      && (forall n :: ObserversOf(r.0, n) == ObserversOf(v, n) + Copies(MediatorObserver(m), multiset(m.interests)[n]))
      && r.1 == [Registered(m.id, true)]
    ensures r.0.key == v.key
    ensures NoEmptyLists(v) ==> NoEmptyLists(r.0)
  {
    if m.name in v.mediatorMap then (v, [])
    else
      var keyed := m.(notifier := InitializeNotifier(m.notifier, Some(v.key)));
      var stored := v.(mediatorMap := v.mediatorMap[m.name := keyed]);
      var interests := ListNotificationInterests(keyed);
      var subscribed := if |interests| > 0 then RegisterObservers(stored, interests, MediatorObserver(keyed)) else stored;
      assert MediatorObserver(keyed) == MediatorObserver(m);
      GuardedSubscription(v, stored, interests, MediatorObserver(m));
      (subscribed, [Registered(m.id, m.name in subscribed.mediatorMap)])
  }

  /** Registering an interest list, skipped when it is empty, on a view with
      the observer lists of `v`: each name gains one copy of `o` per
      occurrence in the list. */
  lemma GuardedSubscription(v: View, stored: View, names: seq<string>, o: Observer)
    requires stored.observerMap == v.observerMap
    ensures var s := if |names| > 0 then RegisterObservers(stored, names, o) else stored;
            && (forall n :: ObserversOf(s, n) == ObserversOf(v, n) + Copies(o, multiset(names)[n]))
            && s.key == stored.key && s.mediatorMap == stored.mediatorMap
            && (NoEmptyLists(v) ==> NoEmptyLists(s))
  {
    assert |names| == 0 ==> RegisterObservers(stored, names, o) == stored;
    assert forall n :: ObserversOf(stored, n) == ObserversOf(v, n);
  }

  function RetrieveMediator(v: View, name: string): Option<Mediator>
  {
    if name in v.mediatorMap then Some(v.mediatorMap[name]) else None
  }

  function HasMediator(v: View, name: string): bool
  {
    name in v.mediatorMap
  }

  /** `removeObserver(names[i], ctx)` for each `i`, in order; it throws (a null
      dereference) as soon as a name has no list. */
  function RemoveObservers(v: View, names: seq<string>, ctx: ObjId): (r: Result<View, Fault>)
    decreases |names|
    ensures r.Success? ==> r.value.key == v.key && r.value.mediatorMap == v.mediatorMap
    ensures r.Success? && NoEmptyLists(v) ==> NoEmptyLists(r.value)
    ensures r.Success? ==> forall n, c :: c != ctx ==> ContextCount(ObserversOf(r.value, n), c) == ContextCount(ObserversOf(v, n), c)
    ensures r.Success? ==> forall n :: ContextCount(ObserversOf(r.value, n), ctx) == CountAfter(ContextCount(ObserversOf(v, n), ctx), multiset(names)[n])
    ensures r.Success? ==> forall n :: n !in names ==> ObserversOf(r.value, n) == ObserversOf(v, n)
    ensures r.Success? ==> forall n :: WithoutContext(ObserversOf(r.value, n), ctx) == WithoutContext(ObserversOf(v, n), ctx)
    ensures r.Success? ==> forall n :: ObserversOf(r.value, n) == RemoveFirstN(ObserversOf(v, n), ctx, multiset(names)[n])
    ensures r.Failure? ==> exists i :: 0 <= i < |names| && r.error == NullObserverList(names[i])
  {
    if names == [] then Success(v)
    else if names[0] !in v.observerMap then Failure(NullObserverList(names[0]))
    else
      var v1 := RemoveObserver(v, names[0], ctx);
      var r := RemoveObservers(v1, names[1..], ctx);
      assert r.Failure? ==> exists i :: 1 <= i < |names| && r.error == NullObserverList(names[i]);
      if r.Success? then
        RemoveObserversCount(v, names, ctx, r.value);
        RemoveObserversExact(v, names, ctx, r.value);
        r
      else r
  }

  /** The inductive step of the exact clause of `RemoveObservers`: each name
      loses the first observers with the context, one per occurrence. */
  lemma RemoveObserversExact(v: View, names: seq<string>, ctx: ObjId, u: View)
    requires names != [] && names[0] in v.observerMap
    requires var v1 := RemoveObserver(v, names[0], ctx);
             forall n :: ObserversOf(u, n) == RemoveFirstN(ObserversOf(v1, n), ctx, multiset(names[1..])[n])
    ensures forall n :: ObserversOf(u, n) == RemoveFirstN(ObserversOf(v, n), ctx, multiset(names)[n])
  {
    var h := names[0];
    assert names == [h] + names[1..];
    assert multiset(names) == multiset{h} + multiset(names[1..]);
    forall n
      ensures ObserversOf(u, n) == RemoveFirstN(ObserversOf(v, n), ctx, multiset(names)[n])
    {
      var k := multiset(names[1..])[n];
      assert multiset(names)[n] == if n == h then k + 1 else k;
      RemoveOneNameExact(v, h, ctx, n, k);
    }
  }

  /** One removal under `h` followed by `k` more under `n`: `n`'s list is
      its old list after `k` first-match removals, plus one when `n` is `h`. */
  lemma RemoveOneNameExact(v: View, h: string, ctx: ObjId, n: string, k: nat)
    requires h in v.observerMap
    ensures RemoveFirstN(ObserversOf(RemoveObserver(v, h, ctx), n), ctx, k)
            == RemoveFirstN(ObserversOf(v, n), ctx, if n == h then k + 1 else k)
  {
    if n == h {
      assert ObserversOf(v, h) == v.observerMap[h];
    }
  }

  /** What is left of `c` observers with a context after `k` removals of it:
      each removal takes one while there is one. */
  function CountAfter(c: nat, k: nat): (r: nat)
    ensures r <= c
    ensures r == 0 || r + k == c
  {
    if c >= k then c - k else 0
  }

  /** The inductive step of the count clause of `RemoveObservers`: removing
      the head name once, then the rest, takes one observer per occurrence. */
  lemma RemoveObserversCount(v: View, names: seq<string>, ctx: ObjId, u: View)
    requires names != [] && names[0] in v.observerMap
    requires var v1 := RemoveObserver(v, names[0], ctx);
             forall n :: ContextCount(ObserversOf(u, n), ctx) == CountAfter(ContextCount(ObserversOf(v1, n), ctx), multiset(names[1..])[n])
    requires forall n :: n !in names[1..] ==> ObserversOf(u, n) == ObserversOf(RemoveObserver(v, names[0], ctx), n)
    requires forall n :: WithoutContext(ObserversOf(u, n), ctx) == WithoutContext(ObserversOf(RemoveObserver(v, names[0], ctx), n), ctx)
    ensures forall n :: ContextCount(ObserversOf(u, n), ctx) == CountAfter(ContextCount(ObserversOf(v, n), ctx), multiset(names)[n])
    ensures forall n :: n !in names ==> ObserversOf(u, n) == ObserversOf(v, n)
    ensures forall n :: WithoutContext(ObserversOf(u, n), ctx) == WithoutContext(ObserversOf(v, n), ctx)
  {
    var h := names[0];
    var v1 := RemoveObserver(v, h, ctx);
    assert WithoutContext(ObserversOf(v1, h), ctx) == WithoutContext(ObserversOf(v, h), ctx) by {
      assert ObserversOf(v, h) == v.observerMap[h];
      RemoveFirstKeepsOthers(v.observerMap[h], ctx);
    }
    assert names == [h] + names[1..];
    assert multiset(names) == multiset{h} + multiset(names[1..]);
    forall n
      ensures ContextCount(ObserversOf(u, n), ctx) == CountAfter(ContextCount(ObserversOf(v, n), ctx), multiset(names)[n])
    {
      if n == h {
        assert ObserversOf(v, h) == v.observerMap[h];
        assert multiset(names)[n] == multiset(names[1..])[n] + 1;
      } else {
        assert ObserversOf(v1, n) == ObserversOf(v, n);
        assert multiset(names)[n] == multiset(names[1..])[n];
      }
    }
    forall n | n !in names
      ensures ObserversOf(u, n) == ObserversOf(v, n)
    {
      assert n != h && n !in names[1..];
    }
  }

  /** `removeMediator`. An absent name returns null and changes nothing.
      Otherwise the mediator's observer is removed from each interest's list,
      the mediator leaves the map, and then its `onRemove` runs (it no longer
      sees itself registered); the removed mediator is returned. */
  function RemoveMediator(v: View, name: string): (r: Result<(View, Option<Mediator>, seq<Event>), Fault>)
    ensures name !in v.mediatorMap ==> r == Success((v, None, []))
    ensures name in v.mediatorMap && r.Success? ==>
      && r.value.0.mediatorMap == v.mediatorMap - {name}
      && r.value.1 == Some(v.mediatorMap[name])
      && r.value.2 == [Removed(v.mediatorMap[name].id, false)]
    ensures name in v.mediatorMap && r.Success? ==>
      var m := v.mediatorMap[name];
      && (forall n :: ContextCount(ObserversOf(r.value.0, n), m.id)
                      == CountAfter(ContextCount(ObserversOf(v, n), m.id), multiset(ListNotificationInterests(m))[n]))
      && (forall n, c :: c != m.id ==> ContextCount(ObserversOf(r.value.0, n), c) == ContextCount(ObserversOf(v, n), c))
      && (forall n :: n !in ListNotificationInterests(m) ==> ObserversOf(r.value.0, n) == ObserversOf(v, n))
      && (forall n :: WithoutContext(ObserversOf(r.value.0, n), m.id) == WithoutContext(ObserversOf(v, n), m.id))
      && (forall n :: ObserversOf(r.value.0, n) == RemoveFirstN(ObserversOf(v, n), m.id, multiset(ListNotificationInterests(m))[n]))
    ensures r.Success? ==> r.value.0.key == v.key
    ensures r.Success? && NoEmptyLists(v) ==> NoEmptyLists(r.value.0)
    ensures r.Failure? ==> name in v.mediatorMap
  {
    if name !in v.mediatorMap then Success((v, None, []))
    else
      var m := v.mediatorMap[name];
      match RemoveObservers(v, ListNotificationInterests(m), m.id)
      case Failure(e) => Failure(e)
      case Success(unsubscribed) =>
        var removed := unsubscribed.(mediatorMap := unsubscribed.mediatorMap - {name});
        assert forall n :: ObserversOf(removed, n) == ObserversOf(unsubscribed, n);
        Success((removed, Some(m), [Removed(m.id, name in removed.mediatorMap)]))
  }

  /** Every interest of `m` still holds as many observers with context `m.id`
      as `m` registered there. */
  ghost predicate Subscribed(v: View, names: seq<string>, ctx: ObjId)
  {
    forall n :: ContextCount(ObserversOf(v, n), ctx) >= multiset(names)[n]
  }

  /** While the observers a registration added are all still there, removing
      them cannot hit a missing list. */
  lemma {:induction false} RemoveObserversSucceeds(v: View, names: seq<string>, ctx: ObjId)
    requires Subscribed(v, names, ctx)
    ensures RemoveObservers(v, names, ctx).Success?
    decreases |names|
  {
    if names != [] {
      var h := names[0];
      assert names == [h] + names[1..];
      assert multiset(names) == multiset{h} + multiset(names[1..]);
      assert ContextCount(ObserversOf(v, h), ctx) >= 1;
      assert h in v.observerMap;
      var v1 := RemoveObserver(v, h, ctx);
      forall n ensures ContextCount(ObserversOf(v1, n), ctx) >= multiset(names[1..])[n] {
        if n != h {
          assert ObserversOf(v1, n) == ObserversOf(v, n);
        }
      }
      RemoveObserversSucceeds(v1, names[1..], ctx);
    }
  }

  /** One step of `RemoveObserversFromCopies`: removing by `o.context` under
      `h` takes one copy of `o` off the list for `h` and nothing else. */
  lemma RemoveOneCopy(v: View, base: View, h: string, o: Observer, counts: multiset<string>)
    requires forall n :: ObserversOf(v, n) == ObserversOf(base, n) + Copies(o, counts[n])
    requires ContextCount(ObserversOf(base, h), o.context) == 0
    requires counts[h] >= 1
    ensures h in v.observerMap
    ensures forall n :: ObserversOf(RemoveObserver(v, h, o.context), n)
                     == ObserversOf(base, n) + Copies(o, (counts - multiset{h})[n])
  {
    var k := counts[h];
    var before := ObserversOf(v, h);
    assert before == ObserversOf(base, h) + Copies(o, k);
    assert |before| >= 1;
    var v1 := RemoveObserver(v, h, o.context);
    assert ObserversOf(v1, h) == ObserversOf(base, h) + Copies(o, k - 1) by {
      assert v.observerMap[h] == before;
      RemoveFirstFromCopies(ObserversOf(base, h), o, k);
    }
    forall n ensures ObserversOf(v1, n) == ObserversOf(base, n) + Copies(o, (counts - multiset{h})[n]) {
      if n != h {
        assert (counts - multiset{h})[n] == counts[n];
      } else {
        assert (counts - multiset{h})[n] == k - 1;
      }
    }
  }

  /** Removing by `o.context` once per name of `names` undoes registering `o`
      once per name of `names`, provided nothing else had that context. */
  lemma {:induction false} RemoveObserversFromCopies(v: View, base: View, names: seq<string>, o: Observer)
    requires forall n :: ObserversOf(v, n) == ObserversOf(base, n) + Copies(o, multiset(names)[n])
    requires forall n :: ContextCount(ObserversOf(base, n), o.context) == 0
    ensures RemoveObservers(v, names, o.context).Success?
    ensures forall n :: ObserversOf(RemoveObservers(v, names, o.context).value, n) == ObserversOf(base, n)
    decreases |names|
  {
    if names == [] {
      forall n ensures ObserversOf(v, n) == ObserversOf(base, n) {
        assert Copies(o, 0) == [];
      }
    } else {
      var h := names[0];
      assert names == [h] + names[1..];
      assert multiset(names) - multiset{h} == multiset(names[1..]);
      RemoveOneCopy(v, base, h, o, multiset(names));
      var v1 := RemoveObserver(v, h, o.context);
      RemoveObserversFromCopies(v1, base, names[1..], o);
      assert RemoveObservers(v, names, o.context) == RemoveObservers(v1, names[1..], o.context);
    }
  }

  /** A mediator registered under a new name, whose identity no observer
      used before, can be removed again, and removal restores the view
      exactly; its `onRemove` runs once and sees it gone. */
  lemma RegisterRemoveMediatorRoundTrip(v: View, m: Mediator)
    requires NoEmptyLists(v)
    requires m.name !in v.mediatorMap
    requires forall n :: ContextCount(ObserversOf(v, n), m.id) == 0
    ensures var keyed := m.(notifier := InitializeNotifier(m.notifier, Some(v.key)));
            RemoveMediator(RegisterMediator(v, m).0, m.name) == Success((v, Some(keyed), [Removed(m.id, false)]))
  {
    var keyed := m.(notifier := InitializeNotifier(m.notifier, Some(v.key)));
    var v1 := RegisterMediator(v, m).0;
    var o := MediatorObserver(m);
    assert MediatorObserver(keyed) == o;
    assert v1.mediatorMap[m.name] == keyed;
    RemoveObserversFromCopies(v1, v, keyed.interests, o);
    var u := RemoveObservers(v1, keyed.interests, m.id).value;
    SameListsSameMap(u, v);
    assert v1.mediatorMap - {m.name} == v.mediatorMap;
  }

  /** Registration is idempotent-ignore: a second mediator under a name
      already taken adds no observer and gets no `onRegister`. */
  lemma RegisterMediatorTwice(v: View, m: Mediator, m2: Mediator)
    requires m2.name == m.name
    ensures var once := RegisterMediator(v, m).0;
            RegisterMediator(once, m2) == (once, [])
  {
  }

  /** After registering under a new name, the mediator (with the view's key)
      is what `retrieveMediator` returns, and `hasMediator` is true. */
  lemma RegisterThenRetrieve(v: View, m: Mediator)
    requires m.name !in v.mediatorMap
    ensures var r := RegisterMediator(v, m).0;
            && HasMediator(r, m.name)
            && RetrieveMediator(r, m.name) == Some(m.(notifier := Notifier(Some(v.key))))
  {
  }

  /** A base-class Mediator lists no interests, so registering one adds no
      observer to any list. */
  lemma RegisterBaseMediatorAddsNoObservers(v: View, id: ObjId, name: Option<string>, c: Option<ObjId>)
    ensures RegisterMediator(v, NewMediator(id, name, c)).0.observerMap == v.observerMap
  {
  }

  /** Registering an observer and removing by its context undoes the
      registration when no earlier observer for that name shares the context. */
  lemma RegisterRemoveObserverRoundTrip(v: View, name: string, o: Observer)
    requires NoEmptyLists(v)
    requires ContextCount(ObserversOf(v, name), o.context) == 0
    ensures RemoveObserver(RegisterObserver(v, name, o), name, o.context) == v
  {
    var r := RegisterObserver(v, name, o);
    RemoveFirstFromCopies(ObserversOf(v, name), o, 1);
    assert Copies(o, 1) == [o];
    assert Copies(o, 0) == [];
    var u := RemoveObserver(r, name, o.context);
    SameListsSameMap(u, v);
  }
}

=== FILE: wrappers.dfy ===
/** Option and Result: the model's stand-ins for Java's `null` and for
    exceptions that a call can raise. */
module Wrappers {

  /** `None` plays the part of a Java `null` reference. */
  datatype Option<+T> = None | Some(value: T) {
    function GetOr(default: T): T
    {
      match this
      case Some(v) => v
      case None => default
    }
  }

  /** `Failure` carries the exception a Java call would have thrown. */
  datatype Result<+R, +E> = Success(value: R) | Failure(error: E) {
    predicate IsFailure()
    {
      Failure?
    }

    function PropagateFailure<U>(): Result<U, E>
      requires Failure?
    {
      Failure(error)
    }

    function Extract(): R
      requires Success?
    {
      value
    }
  }
}
